=== FILE: README.md ===
# yii2-queue-azure-bus-service, modelled in Dafny

A model of the Azure Service Bus driver for yii2-queue, with proofs. The
driver talks to a Service Bus queue over its REST interface. It has four
jobs:

- It signs every request with a shared-access-signature token.
- It receives messages in peek-lock mode and maps the response headers onto a
  `Message` and its `BrokerProperties` envelope.
- It sends messages with the envelope serialised into the `BrokerProperties`
  header.
- It deletes a message through its lock location.

On top of this, `Queue` runs the worker loop and pushes jobs. `Request` retries
a send with exponential back-off. `SasTokenGenerator` and
`ConnectionStringParser` are standalone helpers.

Modules, one per file:

| file | module | models |
|---|---|---|
| wrappers.dfy | `Wrappers` | `Option`, `Result` |
| text.dfy | `Text` | PHP string primitives: `strtolower`, `lcfirst`, `explode`, `implode`, `trim`, `%d` |
| percent.dfy | `Percent` | `urlencode`, `rawurlencode`, the `%XX` lower-casing pass, and percent-decoding as their partner |
| sastoken.dfy | `SasToken` | the token format, a parser for it, and `SasTokenGenerator` |
| broker.dfy | `Broker` | class `BrokerProperties`: fields, `init`, date setters, `setAttributes`, `__toString` |
| message.dfy | `Messages` | class `Message` and its case-insensitive custom properties |
| servicebus_auth.dfy | `ServiceBusAuth` | `ServiceBus` configuration, `lowerUrlEncode`, `generateAuthorizationToken` |
| servicebus.dfy | `ServiceBus` | `receiveMessage`, `sendMessage`, `deleteMessage`, `authorizationHeaderHandler` |
| retry.dfy | `Retry` | class `Request`: `sendAndRetryOnFailure`, `canContinue`, `getRetryDelay` |
| connstring.dfy | `ConnectionString` | `parseConnectionString` |
| queue.dfy | `QueueDriver` | `Queue::run`, `status`, `pushMessage` |

How the model is put together:

- **Classes.** The objects whose fields the PHP code assigns are Dafny
  classes: `BrokerProperties`, `Message` and `Request`. Their methods carry
  `modifies` clauses and state the new state in terms of a specification
  function of the old state, such as `Fields() == AssignAll(old(Fields()), …)`.
- **Loops.** Loops in the PHP code are methods with `while` loops, each proved
  against a recursive function. Examples: `__toString`'s loop, the header loops
  of `receiveMessage` and `sendMessage`, the pair loop of
  `parseConnectionString`, and the worker loop.
- **Pure code.** Everything else is functions.
- **Typed properties.** A typed PHP property that may be uninitialised or null
  is an `Option`.
- **Byte strings.** PHP strings are `ByteString`, characters below 256.
- **Library calls as parameters.** These are passed in as functions: the
  clock, `uniqid`, HMAC-SHA256 (RFC 2104), Base64 (section 4 of RFC 4648),
  `json_encode` and `json_decode`, `parse_url`, Carbon's date parsing and
  formatting, and the HTTP transport.
- **Worker inputs.** The answers of the worker's `canContinue()` callback are
  a finite sequence. The job handler's results are a function of the poll
  number.

Three facts about the code that the model keeps:

- `deleteMessage` uses only the path of the lock location.
- `receiveMessage` treats a missing `date` header as an error, because
  `Message::$date` is a non-nullable string.
- The worker loop hands every message it receives to the job handler.

## Model

| member | source | states |
|---|---|---|
| Text.Lower | src/service/SasTokenGenerator.php:25 | `strtolower` keeps the length, maps each character through ASCII lower-casing, and leaves no upper-case letter |
| Text.LowerIdempotent | src/service/Message.php:72-80 | lower-casing twice is lower-casing once, so a stored property name is already in the form it is looked up under |
| Text.LowerOfNoUpper | src/service/SasTokenGenerator.php:25 | a string without upper-case letters is unchanged by `strtolower` |
| Text.LcFirst | src/service/ServiceBus.php:118 | `lcfirst` lower-cases the first character only and keeps the rest and the length |
| Text.SplitAtFirst | src/service/ConnectionStringParser.php:20 | `explode('=', $pair, 2)` fails exactly when there is no `=`; otherwise the two parts with the separator rebuild the pair, and the key holds no `=` |
| Text.SplitAtFirstOf | src/service/ConnectionStringParser.php:20 | the split finds the first separator whatever the value holds, so a value may contain `=` |
| Text.SplitAtLast | src/service/SasTokenGenerator.php:31-36 | helper of the token parser that reads `skn=%s&sr=%s` back: the split at the last `&` rebuilds the string and leaves a right part with no `&`, so the key name may hold `&` |
| Text.SplitAtLastOf | src/service/SasTokenGenerator.php:31-36 | helper of the same parser: the last `&` is found whatever the key name before it holds |
| Text.Explode | src/service/ConnectionStringParser.php:19 | `explode` gives at least one piece, no piece holds the separator, and imploding the pieces gives the string back |
| Text.ExplodeJoin | src/service/ConnectionStringParser.php:19 | exploding an implode of separator-free pieces gives the pieces back |
| Text.TrimStart | src/service/ConnectionStringParser.php:19 | what is left is a suffix; everything cut off is the trimmed character; the result does not start with it |
| Text.TrimEnd | src/service/ConnectionStringParser.php:19 | what is left is a prefix; everything cut off is the trimmed character; the result does not end with it |
| Text.TrimShape | src/service/ConnectionStringParser.php:19 | `trim($s, ';')` leaves a middle piece of the string that neither starts nor ends with `;`, and only `;` is removed around it |
| Text.DecimalString | src/service/SasTokenGenerator.php:28-34 | `%d` of an integer consists of digits and a sign only |
| Text.ParseDecimalString | src/service/SasTokenGenerator.php:28-34 | the decimal rendering of an integer reads back as that integer |
| Text.DecimalStringInjective | src/service/ServiceBus.php:194-202 | two expiry instants with the same rendering are the same instant |
| Percent.EncodeWith | src/service/ServiceBus.php:215 | a percent-encoding consists only of ASCII letters and digits, `-`, `_`, `.`, `~`, `+` and the `%` of its escapes |
| Percent.LowerEscapesOfEncoding | src/service/ServiceBus.php:208-217 | running the `/%[0-9A-F]{2}/` to `strtolower` pass over `urlencode` output gives the same encoding with lower-case hex digits |
| Percent.LowerHexEncoding | src/service/ServiceBus.php:208-217 | in the lower-hex encoding every `%` opens an escape of exactly two lower-case hex digits |
| Percent.DecodeEncode | src/service/ServiceBus.php:215 | percent-decoding an encoding, with hex digits of either case, gives the octets back, so the encoding loses nothing |
| SasToken.ParseFormat | src/service/ServiceBus.php:20 | a token `SharedAccessSignature sig=…&se=…&skn=…&sr=…` whose signature, expiry and resource hold no `&` parses back into exactly its four fields, whatever the key name holds |
| SasToken.NoSeparatorInEncoding | src/service/SasTokenGenerator.php:29 | no percent-encoding contains `&`, so an encoded field cannot be mistaken for a field boundary |
| SasToken.NoSeparatorInDecimal | src/service/SasTokenGenerator.php:32-34 | the decimal expiry contains no `&` |
| SasToken.ResourceNoSeparator | src/service/SasTokenGenerator.php:25 | the generator's resource holds no `&` |
| SasToken.ResourceMeaning | src/service/SasTokenGenerator.php:25 | `strtolower(rawurlencode(strtolower(endpoint)))` is the raw encoding of the lower-cased endpoint with lower-case hex digits; it has no upper-case letter and decodes back to the lower-cased endpoint |
| SasToken.GeneratedTokenReadsBack | src/service/SasTokenGenerator.php:19-38 | the generated token parses back into exactly the four fields it was built from |
| SasToken.SasFieldsSeparable | src/service/SasTokenGenerator.php:25-36 | none of the generated signature, expiry and resource holds a field separator |
| SasToken.SasFieldsMeaning | src/service/SasTokenGenerator.php:19-38 | the resource is the encoded endpoint and decodes to the lower-cased endpoint; the signature decodes to the Base64 HMAC-SHA256 of resource, newline and expiry under the access key; the expiry reads as `time() + tokenExpiry`; the key name is the generator's |
| SasToken.TokenExpiry | src/service/SasTokenGenerator.php:22-34 | the token's `se` field reads back as the instant `time() + tokenExpiry` |
| Broker.SettableEntries | src/service/BrokerProperties.php:117-121 | `__toString`'s loop collects, in order, the entry of every settable property that is set |
| Broker.SettableKeys | src/service/BrokerProperties.php:104-121 | the serialised keys are exactly the wire names of the set settable properties, in the fixed order of the list; unset ones are skipped |
| Broker.SettableValues | src/service/BrokerProperties.php:117-121 | every serialised entry is a set settable property with its value, dates rendered in the Azure date format |
| Broker.ServerAssignedNotSerialised | src/service/BrokerProperties.php:104-115 | delivery count, lock token, sequence number, lock expiry and enqueue time are never serialised |
| Broker.AsWrittenAgreesFrom | src/service/BrokerProperties.php:117-121 | where the loop as written does produce output, that output equals the corrected serialisation |
| Broker.AsWrittenFailsFrom | src/service/BrokerProperties.php:117-121 | as written the loop fails exactly when some non-nullable settable property is uninitialised |
| Broker.DefaultMessageId | src/service/BrokerProperties.php:87-92 | after `init` a message id is always set; a supplied one is kept, otherwise it is the `uniqid` value; nothing else changes |
| Broker.BrokerProperties.constructor | src/service/BrokerProperties.php:87-92 | a new envelope holds the configuration with `init` applied |
| Broker.BrokerProperties.Init | src/service/BrokerProperties.php:87-92 | `init` fills in a missing message id and changes nothing else |
| Broker.BrokerProperties.SetEnqueuedTimeUtc | src/service/BrokerProperties.php:143-150 | a Carbon value is stored as it is and a string is parsed, a failed parse stored as null by the `?: null`; the getter returns it; no other field changes |
| Broker.BrokerProperties.SetLockedUntilUtc | src/service/BrokerProperties.php:152-159 | as for the enqueue time, for the lock expiry |
| Broker.BrokerProperties.SetScheduledEnqueueTimeUtc | src/service/BrokerProperties.php:161-168 | as for the enqueue time, for the schedule |
| Broker.BrokerProperties.SetAttribute | src/service/ServiceBus.php:121 | assigning one decoded attribute changes the envelope as `Assign` says: the named field only, dates through their setters, unknown names ignored |
| Broker.BrokerProperties.SetAttributes | src/service/ServiceBus.php:121 | the decoded attributes are assigned in order, so the envelope is the fold of the single assignments and a later entry for a name wins |
| Broker.BrokerProperties.ToString | src/service/BrokerProperties.php:100-124 | with the corrected `__toString` (first Findings row), the header is `json_encode` of the settable entries of the current fields |
| Messages.StoreThenLookup | src/service/Message.php:70-81 | a stored custom property is read back under every spelling of its name that differs only in case |
| Messages.StoreKeepsOthers | src/service/Message.php:70-81 | a store leaves every name that differs after lower-casing untouched |
| Messages.StoreOverwrites | src/service/Message.php:78-81 | a second store under the same name, in whatever case, replaces the first |
| Messages.StoreKeepsLowerKeys | src/service/Message.php:78-81 | storing keeps every key lower-case |
| Messages.LookupAbsent | src/service/Message.php:70-73 | a name whose lower-cased form is not stored reads as null |
| Messages.Message.constructor | src/service/Message.php:22-45 | a new message holds the given fields, no envelope and no custom property |
| Messages.Message.GetProperties | src/service/Message.php:54-61 | every key of the custom properties is lower-case |
| Messages.Message.GetProperty | src/service/Message.php:63-73 | an absent name gives null; a stored string is returned as is, and a stored number as a decimal string that reads back as that number, as the `?string` return type coerces it |
| Messages.Message.SetProperty | src/service/Message.php:78-81 | the value is stored under the lower-cased name and reads back under that name, as text through `getProperty`; no other field changes |
| ServiceBusAuth.LowerUrlEncode | src/service/ServiceBus.php:208-217 | `lowerUrlEncode` is the form encoding with lower-case hex digits; every `%` opens a lower-hex escape; it decodes back to its input and holds no `&` |
| ServiceBusAuth.LowerUrlEncodeAgainstUrlEncode | src/service/ServiceBus.php:208-217 | it differs from `urlencode` only in the case of the escape digits |
| ServiceBusAuth.AuthorizationTokenReadsBack | src/service/ServiceBus.php:192-206 | the authorization token parses back into: the lower-hex-encoded Base64 HMAC of encoded URL, newline and expiry; the expiry `time() + tokenDuration`; the key name; and the lower-hex-encoded URL |
| ServiceBusAuth.AuthorizationTokenParses | src/service/ServiceBus.php:199-205 | a token of a lower-hex signature, a decimal expiry, any key name and a lower-hex resource parses back into its fields |
| ServiceBusAuth.AuthorizationTokenExpiry | src/service/ServiceBus.php:194-202 | the token's `se` field reads back as `time() + tokenDuration` |
| ServiceBusAuth.SignedStringShape | src/service/ServiceBus.php:196 | the signed scope is the encoded URL, a newline, then the decimal expiry, and the expiry reads back from after the newline |
| ServiceBus.AuthorizationHeaderHandler | src/service/ServiceBus.php:180-183 | before a send, the request gains an `authorization` header with the token for its full URL; verb, path, timeout, body and every other header are unchanged |
| ServiceBus.FirstValues | src/service/ServiceBus.php:96-102 | the kept headers are exactly those with a non-empty list of values, each with its first value |
| ServiceBus.KeepFirstValues | src/service/ServiceBus.php:96-102 | the header loop computes exactly the first values |
| ServiceBus.CustomHeaders | src/service/ServiceBus.php:104-131 | every kept header other than content type, date, location and envelope becomes a custom property with its value, and nothing else does |
| ServiceBus.CopyCustomHeaders | src/service/ServiceBus.php:127-131 | the `setProperty` loop leaves exactly the remaining headers as custom properties and changes no other field of the message |
| ServiceBus.LcFirstKeys | src/service/ServiceBus.php:118 | the intended renaming keeps every entry and its position, with the first letter of its name lower-cased |
| ServiceBus.FlipDistinct | src/service/ServiceBus.php:118 | with pairwise distinct values, `array_flip` only swaps every key with its value, keeping the order |
| ServiceBus.FlipLcFirstWithoutCollision | src/service/ServiceBus.php:118 | when no two values share an array key, no two names collide after `lcfirst`, and no string value looks like an integer, the double flip is exactly the intended renaming |
| ServiceBus.KeysRoundTrip | src/service/ServiceBus.php:118 | values that are not integer-like strings come back unchanged from their array keys |
| ServiceBus.SwapBack | src/service/ServiceBus.php:118 | when the array keys read back as their values, swapping, renaming and swapping back only renames the names |
| ServiceBus.FirstDeliveryFlipped | src/service/ServiceBus.php:118 | the input of the second Findings row, one instance of `FlipCollapsesEqualValues`: as written, the envelope `{DeliveryCount: 1, SequenceNumber: 1}` comes out as just `sequenceNumber: 1` |
| ServiceBus.FirstDeliveryRenamed | src/service/ServiceBus.php:118 | the intended renaming of that envelope keeps both counters |
| ServiceBus.FlipKeepsLaterName | src/service/ServiceBus.php:118 | as written, of two entries whose values become the same array key only the later name survives, holding that key's value |
| ServiceBus.FlipCollapsesEqualValues | src/service/ServiceBus.php:118-121 | as written, an envelope of a delivery count `n` followed by any other property whose value is the integer `n` (a sequence number of 1 on a first delivery, for one) loses its delivery count; the intended renaming keeps it as `n` |
| ServiceBus.ClassifyReceive | src/service/ServiceBus.php:93-95 | status 204 means no message, 200 or 201 a message, anything else an error |
| ServiceBus.ReceiveAsWrittenFails | src/service/ServiceBus.php:113-125 | as written, a hit with a `date` header fails with the unknown-method exception exactly when its envelope header is truthy and decodes; so a message is only ever returned without an envelope |
| ServiceBus.ReceiveMessage | src/service/ServiceBus.php:79-137 | with the intended key renaming (second Findings row) and the intended `setAttributes` (third Findings row): transport errors propagate; 204 yields null; 200 or 201 without a `date` header is an error, and with one yields a fresh message built from the response; any other status is an error naming it |
| ServiceBus.BuildMessage | src/service/ServiceBus.php:104-131 | with the intended key renaming (second Findings row) and the intended `setAttributes` (third Findings row), the message built from a hit has the body, content type, date and location of the response, the decoded envelope (if any) and the remaining headers as custom properties |
| ServiceBus.AttachEnvelope | src/service/ServiceBus.php:113-125 | with the intended key renaming (second Findings row) and the intended `setAttributes` (third Findings row), an envelope is attached exactly when the header is present, truthy and valid JSON, and holds the default envelope with the decoded attributes assigned; no other field changes |
| ServiceBus.SendHeaders | src/service/ServiceBus.php:154-167 | with the corrected `__toString` (first Findings row) as the envelope header, header names are stored lower-cased: every custom property becomes its JSON-encoded header; `content-type` and `brokerproperties` are set when present unless a custom property of that name replaces them; no other header is set |
| ServiceBus.EnvelopeReplacedByProperty | src/service/ServiceBus.php:158-166 | a custom property named `brokerproperties` replaces the serialised envelope in the sent headers |
| ServiceBus.MessageHeaders | src/service/ServiceBus.php:152-167 | with the corrected `__toString` (first Findings row), the header building of `sendMessage` computes exactly `SendHeaders` of the message, whose custom property names are lower-case |
| ServiceBus.SetPropertyHeaders | src/service/ServiceBus.php:162-167 | the property loop adds one JSON-encoded header per property over the headers set before |
| ServiceBus.SendMessage | src/service/ServiceBus.php:148-176 | with the corrected `__toString` (first Findings row), the request is a POST of the body to `<queue>/messages` with those headers; only status 201 is success, any other status or a transport error is an error |
| ServiceBus.DeleteMessage | src/service/ServiceBus.php:59-66 | the request is a DELETE of the path of the lock location, with no headers and no body; only a transport error fails, and the status is not checked |
| Retry.Pow4 | src/service/Request.php:57-60 | every retry delay is at least one second |
| Retry.Judge | src/service/Request.php:24-28 | a send succeeds exactly when it returns a response whose status is among the accepted ones, and then it is that response |
| Retry.Delays | src/service/Request.php:36-41 | the pauses from attempt `a` to `b` are `4^a, …, 4^(b-1)` |
| Retry.Request.constructor | src/service/Request.php:10-14 | a new request has its budget, no attempt counted and no pause |
| Retry.Request.SendAndRetryOnFailure | src/service/Request.php:21-47 | the result, the pauses taken and the final attempt count are those of the retry outcome from the current attempt count |
| Retry.OutcomeAccepted | src/service/Request.php:21-47 | the result is the judgement of the last attempt, and a returned response always carries an accepted status |
| Retry.PausesPerAttempt | src/service/Request.php:36-43 | there is one pause per failed attempt, growing as powers of 4 |
| Retry.AttemptsBounded | src/service/Request.php:32-41 | the counter never passes the budget (unless it started above it), and reaches it exactly when every attempt fails |
| Retry.AlwaysFailing | src/service/Request.php:21-47 | a request that always fails is sent `maxRetries - a + 1` times, pauses `4^a … 4^(maxRetries-1)` seconds, and ends with the last failure |
| Retry.FirstSuccessWins | src/service/Request.php:21-47 | the first accepted response within the budget is returned, and only the attempts before it paused |
| ConnectionString.PairOf | src/service/ConnectionStringParser.php:20 | a pair without `=` is a key with a null value; otherwise key, `=` and value rebuild the pair and the key holds no `=` |
| ConnectionString.FirstMissing | src/service/ConnectionStringParser.php:24-28 | no key is reported exactly when every required key is set; a reported key is required, not set, and every required key before it is set |
| ConnectionString.Parsed | src/service/ConnectionStringParser.php:15-36 | parsing fails exactly when a required key is not set, and then names the first such key; otherwise every required key is set, every collected setting but `host` is kept unchanged, no other key is added, and `host` is the endpoint's host or empty |
| ConnectionString.ParseConnectionString | src/service/ConnectionStringParser.php:15-36 | the parser method computes exactly `Parsed` |
| ConnectionString.CheckRequired | src/service/ConnectionStringParser.php:24-28 | the required-key loop reports exactly the first key that is not set |
| ConnectionString.CollectPairs | src/service/ConnectionStringParser.php:17-22 | the pair loop computes exactly the fold of the pairs into the settings |
| ConnectionString.CollectKeys | src/service/ConnectionStringParser.php:19-22 | a key is in the settings exactly when some pair names it |
| ConnectionString.LaterPairWins | src/service/ConnectionStringParser.php:21 | of several pairs with the same key, the last one's value is kept |
| ConnectionString.CollectRender | src/service/ConnectionStringParser.php:19-22 | collecting rendered `Key=Value` settings gives the settings map back |
| ConnectionString.ParseFormat | src/service/ConnectionStringParser.php:15-36 | parsing a formatted connection string that holds the three required keys gives its settings back, plus the endpoint's host |
| ConnectionString.MissingRequiredKey | src/service/ConnectionStringParser.php:24-28 | a connection string lacking a required key is rejected, naming a required key |
| QueueDriver.Step | src/Queue.php:58-67 | one pass of the worker loop adds the events of that pass and either ends the loop as the reference run does or continues with the next pass |
| QueueDriver.Run | src/Queue.php:54-71 | the worker loop produces exactly the events and the end of the reference run |
| QueueDriver.ReceivesPeekLock | src/Queue.php:59 | every receive of the loop is a peek-lock `POST` with the configured timeout |
| QueueDriver.ReceivesFollowChecks | src/Queue.php:58-59 | a receive happens only after `canContinue()` answered true at every check up to it |
| QueueDriver.DeleteIffHandled | src/Queue.php:61-64 | a message is deleted exactly when the handler returned true for it, so a failed job stays locked |
| QueueDriver.DrainedOnlyWithoutRepeat | src/Queue.php:65-67 | the loop stops on an empty queue exactly when `repeat` is false and its last step was an empty receive |
| QueueDriver.EmptyPollContinues | src/Queue.php:58-67 | an empty receive with `repeat` set goes on to the next check |
| QueueDriver.CancelledLoopReceivesNoMore | src/Queue.php:58 | after `canContinue()` answers false nothing more is received |
| QueueDriver.Status | src/Queue.php:79-82 | `status` fails with not-supported for every id |
| QueueDriver.NewPushMessage | src/Queue.php:98-112 | the pushed message has the job as body, the Service Bus content type, the priority (`low` by default) as its one custom property, and an envelope with the time to live, the schedule `now + delay` and the default message id |
| QueueDriver.PushMessage | src/Queue.php:96-117 | the job is sent as the push request; the envelope's message id is returned when the send is accepted, and any other status or a transport error is an error |
| QueueDriver.PushEnvelope | src/Queue.php:102-107 | the pushed envelope serialises to exactly the message id, the time to live and the scheduled time, in that order |
| QueueDriver.PushHeaders | src/Queue.php:98-114 | the intended push request carries exactly the content type, the envelope and the priority header |
| Broker.DefaultEnvelopeAsWrittenFails | src/service/BrokerProperties.php:87-121 | as written, `(string) new BrokerProperties()` raises an Error on the unassigned correlation id, where the corrected serialisation is the message id alone |
| Broker.DefaultEnvelopeSerialised | src/service/BrokerProperties.php:87-121 | a fresh envelope serialises to its default message id alone |
| QueueDriver.PushEnvelopeAsWrittenFails | src/service/BrokerProperties.php:117-121 | the envelope `pushMessage` builds cannot be serialised as written either: reading its unassigned correlation id raises an Error |

## Left out

- HTTP transport: the connection, `getFullUrl()` and the `EVENT_BEFORE_SEND` wiring are not modelled. A send is a function from request to response or exception, and the full URL is a parameter.
- Library calls: the clock, `uniqid`, HMAC-SHA256, Base64, `json_encode`, `json_decode`, `parse_url`, and Carbon's parsing and formatting are parameters, because they are foreign code.
- `Yii::error` logging and `sleep` are left out. The retry pauses are recorded as a sequence instead of being slept.
- `Command.php` (console wiring) and `rector.php` (tooling configuration) hold no driver logic.
- Header names: the response header collection is assumed to hand over lower-case names (`LowerCaseHeaders`), as yii's header collection does; this is a requirement of `ReceiveMessage`, not proved.
- `ServiceBus.AuthorizationHeaderHandler`: `headers->add` appends a value, but request headers are a map of single values here. An earlier `authorization` value is replaced, not kept beside the new one.
- `Broker.BrokerProperties.SetAttributes`: `setAttributes` is a `yii\base\Model` method, and `BrokerProperties` is a `BaseObject`, which has no such method. As written the call throws (the third Findings row); the intended per-name assignment `$this->$name = $value` is modelled, with date properties going through their setters.
- `Broker.BrokerProperties.SetAttribute`: PHP's type juggling on assignment is reduced to this. An integer given to a string property becomes its decimal form, and an integer string (an optional `-` and digits) given to a numeric property is read as that integer; PHP's other numeric strings, such as `" 5"`, `"5.0"` or `"1e3"`, keep the current value instead. A value PHP would reject with a TypeError keeps the current value.
- `Broker.BrokerFields`: `timeToLive` is a PHP float and is kept as an integer number of seconds, so fractional times to live are not modelled.
- `Broker.BrokerProperties.ToString`: `json_encode(…, JSON_THROW_ON_ERROR)` throws a `JsonException` on a value it cannot encode, such as a string that is not valid UTF-8; `encode` is a total function here, so that exception out of `__toString` is not modelled.
- `ServiceBus.SendMessage`: the same `JsonException`, raised by `(string) $message->brokerProperties` or by `json_encode` of a custom property, escapes `sendMessage` (and `pushMessage`); with a total `encode`, `SendHeaders`, `SetPropertyHeaders` and `MessageHeaders` always produce a header and the model reports the transport's outcome instead.
- `ServiceBus.SendMessage`: as written, `(string) $message->brokerProperties` reads all ten settable properties, and nine of them have no default while `init` assigns only the message id, so the cast throws an Error before any request is sent unless every one of them was assigned (`Broker.DefaultEnvelopeAsWrittenFails`). The send path, `MessageHeaders` and `SendHeaders` use the corrected serialisation.
- `Messages.Message.constructor`: `Message::$brokerProperties` has no default, so a message built without an envelope, as `receiveMessage` builds one when there is no `brokerproperties` header, holds it uninitialised and the `!== null` read in `sendMessage` would throw an Error. The model stores null there, which the general typed-property rule merges with uninitialised.
- `Broker.AsWrittenFailsFrom` and `Broker.NonNullable`: an unset `scheduledEnqueueTimeUtc` is read as null, though it is uninitialised until assigned. This undercounts the failures of `__toString` as written.
- `QueueDriver.NewPushMessage`: `new Message(['properties' => …])` has no setter for `properties` in the source; `Message` has only `getProperties`, so as written the configuration throws an `InvalidCallException` before anything is sent. The intended `setProperty(PRIORITY, …)` is modelled.
- `QueueDriver.PushEnvelopeAsWrittenFails`: as written `pushMessage` throws in `new Message` (the line above) before `__toString` is reached, so this failure is only reached once that is fixed; `Broker.DefaultEnvelopeAsWrittenFails` is the as-written failure that is reachable.
- `QueueDriver.PushMessage`: the intended `pushMessage` is modelled; as written it always throws in `new Message`, see `QueueDriver.NewPushMessage`.
- `QueueDriver.Run`: `Message` has no `getMessageId`, `getBody`, `getTimeToLive` or `getDeliveryCount`. The loop reads those from the body and the envelope, which is what they evidently mean. The worker consumes an abstract `Delivery`, not a `Message` object.
- `QueueDriver.Run`: `canContinue()` answers are a finite sequence, false once it runs out. A run that never stops is not modelled.
- `Retry.Pow4`: PHP's `4 ** $attempts` turns into a float once it passes the integer range; the model keeps exact integers.
- `ServiceBus.FlipLcFirstAsWritten`: envelopes are modelled as JSON objects of strings and integers. `json_decode` of a non-object, and `array_flip` dropping float, boolean or null values with a warning, are not modelled.
- `ServiceBus.FlipLcFirstAsWritten`: a name whose `lcfirst` form is an integer string would become an integer key, and this is not modelled.
- `ServiceBus.DeleteMessage`: only the path of the lock location is used; no other way of naming the message is modelled, as the code has none.
- `Broker.BrokerProperties.SetEnqueuedTimeUtc`: a string that Carbon cannot parse is stored as null, as the `?: null` reads it; Carbon's `createFromFormat` in its default strict mode throws an `InvalidFormatException` instead, which is not modelled.
- `Broker.BrokerProperties.SetLockedUntilUtc`: as for the enqueue time, a failed parse is stored as null rather than throwing.
- `Broker.BrokerProperties.SetScheduledEnqueueTimeUtc`: as for the enqueue time, a failed parse is stored as null rather than throwing.
- `ConnectionString.ParseConnectionString`: setting keys are strings. PHP stores an integer-like key such as `5` as an integer key, and the spread `[...$result, 'host' => …]` renumbers integer keys from 0, so `5=x;…` comes back under the key `0`. This renumbering is not modelled.
- `ConnectionString.ParseFormat`: the round trip holds in PHP only for settings with no integer-like key, for the reason in the line above.

## Findings

| source | as written | input that shows it | evidently intended | confidence | as-written member | corrected member |
|---|---|---|---|---|---|---|
| src/service/BrokerProperties.php:117-121 | `null !== $this->$value` reads every settable property, but non-nullable typed properties that were never assigned are uninitialised, and reading one throws an Error | `(string) new BrokerProperties()`, where `init` assigns only the message id: reading `correlationId` throws | skip properties that are unset | not executed | Broker.SettableAsWritten (Broker.DefaultEnvelopeAsWrittenFails) | Broker.Settable (Broker.DefaultEnvelopeSerialised) |
| src/service/ServiceBus.php:118 | `array_flip(array_map('lcfirst', array_flip($decoded)))` flips values into keys, so properties with equal values collapse to the last name | the envelope `{"DeliveryCount": 1, "SequenceNumber": 1}`, as a queue's first message can carry: only `sequenceNumber` survives and the delivery count is lost (observable once the `setAttributes` call of the row below is fixed) | lower-case the first letter of every key, keeping every value | not executed | ServiceBus.FlipLcFirstAsWritten (ServiceBus.FlipCollapsesEqualValues) | ServiceBus.LcFirstKeys (ServiceBus.FlipLcFirstWithoutCollision) |
| src/service/ServiceBus.php:120-122 | `setAttributes` is called on a `BrokerProperties`, a `BaseObject`, which has no such method; `__call` throws an `UnknownMethodException`, which `catch (\JsonException $e)` does not catch | a 200 response with a `date` header and `brokerproperties: {"DeliveryCount":1}`: the receive throws instead of returning the message | assign each decoded attribute to the new envelope | not executed | ServiceBus.ReceiveAsWritten (ServiceBus.ReceiveAsWrittenFails) | ServiceBus.ReceiveMessage (ServiceBus.AttachEnvelope) |

=== FILE: broker.dfy ===
/**
 * `BrokerProperties`: the metadata envelope of a message. Each field is an
 * Option (None for a property that is unset or null). The object is filled
 * either from a configuration (when sending) or from the decoded
 * `BrokerProperties` response header (when receiving), and serialised to the
 * JSON object of its ten settable properties.
 */
module Broker {
  import opened Wrappers
  import opened Text

  /** A Carbon instant, in seconds. */
  type Instant = int

  /** `Carbon::createFromFormat(AZURE_DATE_FORMAT, text, GMT) ?: null` and `->format(AZURE_DATE_FORMAT)`. */
  datatype DateCodec = DateCodec(parse: string -> Option<Instant>, format: Instant -> string)

  /** What the date setters accept: a Carbon instance or a string. */
  datatype DateInput = DateValue(instant: Instant) | DateText(text: string)

  /** The scalar JSON values the envelope carries (strings and integers). */
  datatype JsonScalar = JString(s: string) | JNumber(n: int)

  /** The value of every property; `timeToLive` is a PHP float, kept here as an integer number of seconds. */
  datatype BrokerFields = BrokerFields(
    correlationId: Option<string>,
    deliveryCount: Option<int>,
    labelText: Option<string>,
    lockToken: Option<string>,
    messageId: Option<string>,
    partitionKey: Option<string>,
    replyTo: Option<string>,
    replyToSessionId: Option<string>,
    sequenceNumber: Option<string>,
    sessionId: Option<string>,
    timeToLive: Option<int>,
    to: Option<string>,
    enqueuedTimeUtc: Option<Instant>,
    lockedUntilUtc: Option<Instant>,
    scheduledEnqueueTimeUtc: Option<Instant>)

  const Unset: BrokerFields := BrokerFields(None, None, None, None, None, None, None, None, None, None, None, None, None, None, None)

  /** The properties of an envelope, the ten settable ones first, in the order `__toString` lists them. */
  datatype Property = CorrelationId | SessionId | MessageId | Label | ReplyTo
    | TimeToLive | To | ScheduledEnqueueTimeUtc | ReplyToSessionId | PartitionKey
    | DeliveryCount | LockToken | SequenceNumber | LockedUntilUtc | EnqueuedTimeUtc

  /** The key a property goes under in the `BrokerProperties` header. */
  function WireName(p: Property): string
  {
    match p
    case CorrelationId => "CorrelationId"
    case SessionId => "SessionId"
    case MessageId => "MessageId"
    case Label => "Label"
    case ReplyTo => "ReplyTo"
    case TimeToLive => "TimeToLive"
    case To => "To"
    case ScheduledEnqueueTimeUtc => "ScheduledEnqueueTimeUtc"
    case ReplyToSessionId => "ReplyToSessionId"
    case PartitionKey => "PartitionKey"
    case DeliveryCount => "DeliveryCount"
    case LockToken => "LockToken"
    case SequenceNumber => "SequenceNumber"
    case LockedUntilUtc => "LockedUntilUtc"
    case EnqueuedTimeUtc => "EnqueuedTimeUtc"
  }

  /** The settable properties in the order they are emitted. */
  const SettableOrder: seq<Property> := [CorrelationId, SessionId, MessageId, Label, ReplyTo,
    TimeToLive, To, ScheduledEnqueueTimeUtc, ReplyToSessionId, PartitionKey]

  /** The properties only the broker assigns, under their wire names. */
  const ServerAssignedNames: seq<string> := [WireName(DeliveryCount), WireName(LockToken), WireName(SequenceNumber),
    WireName(LockedUntilUtc), WireName(EnqueuedTimeUtc)]

  /** A property's value with its PHP type. */
  datatype FieldValue = TextValue(text: string) | NumberValue(number: int) | DateField(instant: Instant)

  /** The value of property `p` if it is settable and set; server-assigned properties are never emitted. */
  function SettableValue(f: BrokerFields, p: Property): Option<FieldValue>
  {
    match p
    case CorrelationId => TextOf(f.correlationId)
    case SessionId => TextOf(f.sessionId)
    case MessageId => TextOf(f.messageId)
    case Label => TextOf(f.labelText)
    case ReplyTo => TextOf(f.replyTo)
    case TimeToLive => if f.timeToLive.Some? then Some(NumberValue(f.timeToLive.value)) else None
    case To => TextOf(f.to)
    case ScheduledEnqueueTimeUtc =>
      if f.scheduledEnqueueTimeUtc.Some? then Some(DateField(f.scheduledEnqueueTimeUtc.value)) else None
    case ReplyToSessionId => TextOf(f.replyToSessionId)
    case PartitionKey => TextOf(f.partitionKey)
    case DeliveryCount => None
    case LockToken => None
    case SequenceNumber => None
    case LockedUntilUtc => None
    case EnqueuedTimeUtc => None
  }

  function TextOf(o: Option<string>): Option<FieldValue>
  {
    if o.Some? then Some(TextValue(o.value)) else None
  }

  /** Dates become strings in the Azure date format; everything else is emitted as it is. */
  function ToJson(v: FieldValue, format: Instant -> string): JsonScalar
  {
    match v
    case TextValue(t) => JString(t)
    case NumberValue(n) => JNumber(n)
    case DateField(d) => JString(format(d))
  }

  /** The entry for property `p`: none when it is not set. */
  function Entry(f: BrokerFields, p: Property, format: Instant -> string): seq<(string, JsonScalar)>
  {
    match SettableValue(f, p)
    case None => []
    case Some(v) => [(WireName(p), ToJson(v, format))]
  }

  /** The entries for the set properties among `props`, in the order of `props`. */
  function SettableFrom(f: BrokerFields, props: seq<Property>, format: Instant -> string): seq<(string, JsonScalar)>
  {
    if props == [] then [] else Entry(f, props[0], format) + SettableFrom(f, props[1..], format)
  }

  /** An unset property at the head of the list adds no entry. */
  lemma SettableFromSkip(f: BrokerFields, p: Property, rest: seq<Property>, format: Instant -> string)
    requires SettableValue(f, p).None?
    ensures SettableFrom(f, [p] + rest, format) == SettableFrom(f, rest, format)
  {
    assert ([p] + rest)[1..] == rest;
  }

  /** A set property at the head of the list is emitted first, under its wire name. */
  lemma SettableFromKeep(f: BrokerFields, p: Property, rest: seq<Property>, format: Instant -> string)
    requires SettableValue(f, p).Some?
    ensures SettableFrom(f, [p] + rest, format)
      == [(WireName(p), ToJson(SettableValue(f, p).value, format))] + SettableFrom(f, rest, format)
  {
    assert ([p] + rest)[1..] == rest;
  }

  /** The entries of two property lists one after the other are the entries of each, in turn. */
  lemma {:induction false} SettableFromAppend(f: BrokerFields, a: seq<Property>, b: seq<Property>, format: Instant -> string)
    ensures SettableFrom(f, a + b, format) == SettableFrom(f, a, format) + SettableFrom(f, b, format)
  {
    if a != [] {
      assert (a + b)[0] == a[0] && (a + b)[1..] == a[1..] + b;
      SettableFromAppend(f, a[1..], b, format);
      assert SettableFrom(f, a + b, format) == Entry(f, a[0], format) + (SettableFrom(f, a[1..], format) + SettableFrom(f, b, format));
    } else {
      assert a + b == b;
    }
  }

  /** `__toString`'s loop: for each property in turn, its entry if it is set. */
  method SettableEntries(f: BrokerFields, props: seq<Property>, format: Instant -> string)
    returns (values: seq<(string, JsonScalar)>)
    ensures values == SettableFrom(f, props, format)
  {
    values := [];
    var i := 0;
    while i < |props|
      invariant 0 <= i <= |props|
      invariant values + SettableFrom(f, props[i..], format) == SettableFrom(f, props, format)
    {
      var entry := Entry(f, props[i], format);
      SettableFromStep(f, props, i, format);
      values := values + entry;
      i := i + 1;
    }
    assert values + SettableFrom(f, props[i..], format) == values;
  }

  /** Taking one more property off the front of `props[i..]`. */
  lemma SettableFromStep(f: BrokerFields, props: seq<Property>, i: nat, format: Instant -> string)
    requires i < |props|
    ensures SettableFrom(f, props[i..], format) == Entry(f, props[i], format) + SettableFrom(f, props[i + 1..], format)
  {
    assert props[i..][0] == props[i] && props[i..][1..] == props[i + 1..];
  }

  /** The key-value pairs `__toString` hands to `json_encode`. */
  function Settable(f: BrokerFields, format: Instant -> string): seq<(string, JsonScalar)>
  {
    SettableFrom(f, SettableOrder, format)
  }

  /** The wire names of the properties of `props` that are set, in order: the reference for what is emitted. */
  function PresentNames(f: BrokerFields, props: seq<Property>): seq<string>
  {
    if props == [] then []
    else (if SettableValue(f, props[0]).Some? then [WireName(props[0])] else []) + PresentNames(f, props[1..])
  }

  function Keys<V>(entries: seq<(string, V)>): (r: seq<string>)
    ensures |r| == |entries| && forall i | 0 <= i < |r| :: r[i] == entries[i].0
  {
    if entries == [] then [] else [entries[0].0] + Keys(entries[1..])
  }

  lemma {:induction false} SettableFromKeys(f: BrokerFields, props: seq<Property>, format: Instant -> string)
    ensures Keys(SettableFrom(f, props, format)) == PresentNames(f, props)
  {
    if props != [] {
      var head := Entry(f, props[0], format);
      var tail := SettableFrom(f, props[1..], format);
      SettableFromKeys(f, props[1..], format);
      assert Keys(head + tail) == Keys(head) + Keys(tail);
    }
  }

  /** Exactly the set settable properties are emitted, in the fixed order; unset ones are skipped. */
  lemma SettableKeys(f: BrokerFields, format: Instant -> string)
    ensures Keys(Settable(f, format)) == PresentNames(f, SettableOrder)
  {
    SettableFromKeys(f, SettableOrder, format);
  }

  /** An emitted entry: the wire name of a set property of `props` with its value (a date formatted). */
  predicate EmittedFrom(f: BrokerFields, props: seq<Property>, e: (string, JsonScalar), format: Instant -> string)
  {
    exists p | p in props :: SettableValue(f, p).Some? && e == (WireName(p), ToJson(SettableValue(f, p).value, format))
  }

  lemma {:induction false} SettableFromValues(f: BrokerFields, props: seq<Property>, format: Instant -> string)
    ensures forall e | e in SettableFrom(f, props, format) :: EmittedFrom(f, props, e, format)
  {
    if props != [] {
      SettableFromValues(f, props[1..], format);
      forall e | e in SettableFrom(f, props, format) ensures EmittedFrom(f, props, e, format) {
        if e in Entry(f, props[0], format) {
          assert props[0] in props;
        } else {
          assert e in SettableFrom(f, props[1..], format);
          assert EmittedFrom(f, props[1..], e, format);
          var p :| p in props[1..] && SettableValue(f, p).Some? && e == (WireName(p), ToJson(SettableValue(f, p).value, format));
          assert p in props;
        }
      }
    }
  }

  /** Every emitted entry is a settable property that is set, with its value (a date formatted). */
  lemma SettableValues(f: BrokerFields, format: Instant -> string)
    ensures forall e | e in Settable(f, format) :: EmittedFrom(f, SettableOrder, e, format)
  {
    SettableFromValues(f, SettableOrder, format);
  }

  /** No settable property goes under the name of a server-assigned one. */
  lemma WireNameNotServerAssigned(p: Property)
    requires p in SettableOrder
    ensures WireName(p) !in ServerAssignedNames
  {
    var w := WireName(p);
    assert forall i | 0 <= i < |ServerAssignedNames| :: |ServerAssignedNames[i]| != |w| || ServerAssignedNames[i][0] != w[0];
  }

  /** Server-assigned properties are never serialised. */
  lemma ServerAssignedNotSerialised(f: BrokerFields, format: Instant -> string)
    ensures forall e | e in Settable(f, format) :: e.0 !in ServerAssignedNames
  {
    SettableValues(f, format);
    forall e | e in Settable(f, format) ensures e.0 !in ServerAssignedNames {
      assert EmittedFrom(f, SettableOrder, e, format);
      var p :| p in SettableOrder && SettableValue(f, p).Some? && e == (WireName(p), ToJson(SettableValue(f, p).value, format));
      WireNameNotServerAssigned(p);
    }
  }

  /** Read errors of the PHP runtime. */
  datatype ReadError = UninitialisedRead(name: string)

  /**
   * Properties declared with a non-nullable type, whose unset value can only
   * be the uninitialised state: reading one raises an Error instead of
   * yielding null. The nullable `scheduledEnqueueTimeUtc` is uninitialised too
   * until assigned, but its setter may also store null, so an unset one is read
   * here as null, which undercounts the failures.
   */
  predicate NonNullable(p: Property) { p != ScheduledEnqueueTimeUtc }

  /** `__toString` as written: the first unset non-nullable property read aborts it. */
  function SettableAsWrittenFrom(f: BrokerFields, props: seq<Property>, format: Instant -> string)
    : Result<seq<(string, JsonScalar)>, ReadError>
  {
    if props == [] then Success([])
    else
      match SettableValue(f, props[0])
      case None =>
        if NonNullable(props[0]) then Failure(UninitialisedRead(WireName(props[0])))
        else SettableAsWrittenFrom(f, props[1..], format)
      case Some(v) =>
        match SettableAsWrittenFrom(f, props[1..], format)
        case Failure(e) => Failure(e)
        case Success(rest) => Success([(WireName(props[0]), ToJson(v, format))] + rest)
  }

  function SettableAsWritten(f: BrokerFields, format: Instant -> string): Result<seq<(string, JsonScalar)>, ReadError>
  {
    SettableAsWrittenFrom(f, SettableOrder, format)
  }

  /** Where the code as written does produce output, it is the output of the corrected serialisation. */
  lemma {:induction false} AsWrittenAgreesFrom(f: BrokerFields, props: seq<Property>, format: Instant -> string)
    ensures SettableAsWrittenFrom(f, props, format).Success? ==>
      SettableAsWrittenFrom(f, props, format).value == SettableFrom(f, props, format)
  {
    if props != [] {
      AsWrittenAgreesFrom(f, props[1..], format);
    }
  }

  /** As written, serialisation fails exactly when some non-nullable settable property is unset. */
  lemma {:induction false} AsWrittenFailsFrom(f: BrokerFields, props: seq<Property>, format: Instant -> string)
    ensures SettableAsWrittenFrom(f, props, format).Failure? <==>
      exists p | p in props :: NonNullable(p) && SettableValue(f, p).None?
  {
    if props != [] {
      AsWrittenFailsFrom(f, props[1..], format);
      assert forall p | p in props :: p == props[0] || p in props[1..];
    }
  }

  /** Properties none of which is set add no entries. */
  lemma {:induction false} SettableFromNone(f: BrokerFields, props: seq<Property>, format: Instant -> string)
    requires forall p | p in props :: SettableValue(f, p).None?
    ensures SettableFrom(f, props, format) == []
  {
    if props != [] {
      assert props[0] in props;
      assert forall p | p in props[1..] :: p in props;
      SettableFromNone(f, props[1..], format);
    }
  }

  /**
   * `(string) new BrokerProperties()`: `init` sets only the message id, so as
   * written reading the correlation id throws, where the corrected
   * serialisation is the message id alone.
   */
  lemma DefaultEnvelopeAsWrittenFails(uniqid: string, format: Instant -> string)
    ensures SettableAsWritten(WithDefaultMessageId(Unset, uniqid), format) == Failure(UninitialisedRead("CorrelationId"))
    ensures Settable(WithDefaultMessageId(Unset, uniqid), format) == [("MessageId", JString(uniqid))]
  {
    DefaultEnvelopeSerialised(uniqid, format);
  }

  lemma OnlyMessageIdSet(uniqid: string)
    ensures forall p | p != MessageId :: SettableValue(WithDefaultMessageId(Unset, uniqid), p).None?
  {
    forall p | p != MessageId ensures SettableValue(WithDefaultMessageId(Unset, uniqid), p).None? {
      assert WithDefaultMessageId(Unset, uniqid) == Unset.(messageId := Some(uniqid));
    }
  }

  lemma DefaultEnvelopeSerialised(uniqid: string, format: Instant -> string)
    ensures Settable(WithDefaultMessageId(Unset, uniqid), format) == [("MessageId", JString(uniqid))]
  {
    var f := WithDefaultMessageId(Unset, uniqid);
    OnlyMessageIdSet(uniqid);
    var head: seq<Property> := [CorrelationId, SessionId];
    var tail: seq<Property> := [Label, ReplyTo, TimeToLive, To, ScheduledEnqueueTimeUtc, ReplyToSessionId, PartitionKey];
    assert MessageId !in head && MessageId !in tail;
    assert SettableOrder == head + ([MessageId] + tail);
    SettableFromAppend(f, head, [MessageId] + tail, format);
    SettableFromNone(f, head, format);
    SettableFromKeep(f, MessageId, tail, format);
    SettableFromNone(f, tail, format);
  }

  /** `init()`: `messageId ??= uniqid('', true)`. */
  function WithDefaultMessageId(f: BrokerFields, uniqid: string): (r: BrokerFields)
  {
    f.(messageId := Some(f.messageId.GetOr(uniqid)))
  }

  /** After `init` a message id is always set, a supplied one is kept, and nothing else changes. */
  lemma DefaultMessageId(f: BrokerFields, uniqid: string)
    ensures WithDefaultMessageId(f, uniqid).messageId.Some?
    ensures f.messageId.Some? ==> WithDefaultMessageId(f, uniqid).messageId == f.messageId
    ensures f.messageId.None? ==> WithDefaultMessageId(f, uniqid).messageId == Some(uniqid)
    ensures WithDefaultMessageId(f, uniqid).(messageId := f.messageId) == f
  {
  }

  /** What a date setter stores: a date as it is, a string parsed (null when parsing fails). */
  function ToInstant(x: DateInput, parse: string -> Option<Instant>): Option<Instant>
  {
    match x
    case DateValue(d) => Some(d)
    case DateText(t) => parse(t)
  }

  /** The property a decoded attribute names, once the first letter of its wire name is lower-cased; None for any other name. */
  function AttributeOf(name: string): Option<Property>
  {
    if name == "correlationId" then Some(CorrelationId)
    else if name == "deliveryCount" then Some(DeliveryCount)
    else if name == "label" then Some(Label)
    else if name == "lockToken" then Some(LockToken)
    else if name == "messageId" then Some(MessageId)
    else if name == "partitionKey" then Some(PartitionKey)
    else if name == "replyTo" then Some(ReplyTo)
    else if name == "replyToSessionId" then Some(ReplyToSessionId)
    else if name == "sequenceNumber" then Some(SequenceNumber)
    else if name == "sessionId" then Some(SessionId)
    else if name == "timeToLive" then Some(TimeToLive)
    else if name == "to" then Some(To)
    else if name == "enqueuedTimeUtc" then Some(EnqueuedTimeUtc)
    else if name == "lockedUntilUtc" then Some(LockedUntilUtc)
    else if name == "scheduledEnqueueTimeUtc" then Some(ScheduledEnqueueTimeUtc)
    else None
  }

  /** A JSON scalar assigned to a string property (an integer is coerced to its decimal form). */
  function AsText(v: JsonScalar): string
  {
    match v
    case JString(s) => s
    case JNumber(n) => DecimalString(n)
  }

  /** A JSON scalar assigned to a numeric property: a number, or a string that reads as one. */
  function AsNumber(v: JsonScalar, current: Option<int>): Option<int>
  {
    match v
    case JNumber(n) => Some(n)
    case JString(s) => if ParseInt(s).Some? then ParseInt(s) else current
  }

  /** One attribute assignment; date properties go through their setters, unknown names are ignored. */
  function Assign(f: BrokerFields, name: string, v: JsonScalar, parse: string -> Option<Instant>): BrokerFields
  {
    match AttributeOf(name)
    case None => f
    case Some(p) => AssignProperty(f, p, v, parse)
  }

  /** `deliveryCount` names the delivery count. */
  lemma DeliveryCountAttribute()
    ensures AttributeOf("deliveryCount") == Some(DeliveryCount)
  {
  }

  /** Only `deliveryCount` assigns the delivery count. */
  lemma AssignOtherKeepsCount(f: BrokerFields, name: string, v: JsonScalar, parse: string -> Option<Instant>)
    requires name != "deliveryCount"
    ensures Assign(f, name, v, parse).deliveryCount == f.deliveryCount
  {
    OnlyDeliveryCountNamesIt(name);
    var a := AttributeOf(name);
    if a.Some? {
      OtherPropertyKeepsCount(f, a.value, v, parse);
    }
  }

  lemma OnlyDeliveryCountNamesIt(name: string)
    ensures AttributeOf(name) == Some(DeliveryCount) ==> name == "deliveryCount"
  {
  }

  lemma OtherPropertyKeepsCount(f: BrokerFields, p: Property, v: JsonScalar, parse: string -> Option<Instant>)
    requires p != DeliveryCount
    ensures AssignProperty(f, p, v, parse).deliveryCount == f.deliveryCount
  {
  }

  /** The value `v` assigned to property `p`: strings coerced, numbers read, dates parsed. */
  function AssignProperty(f: BrokerFields, p: Property, v: JsonScalar, parse: string -> Option<Instant>): BrokerFields
  {
    match p
    case CorrelationId => f.(correlationId := Some(AsText(v)))
    case DeliveryCount => f.(deliveryCount := AsNumber(v, f.deliveryCount))
    case Label => f.(labelText := Some(AsText(v)))
    case LockToken => f.(lockToken := Some(AsText(v)))
    case MessageId => f.(messageId := Some(AsText(v)))
    case PartitionKey => f.(partitionKey := Some(AsText(v)))
    case ReplyTo => f.(replyTo := Some(AsText(v)))
    case ReplyToSessionId => f.(replyToSessionId := Some(AsText(v)))
    case SequenceNumber => f.(sequenceNumber := Some(AsText(v)))
    case SessionId => f.(sessionId := Some(AsText(v)))
    case TimeToLive => f.(timeToLive := AsNumber(v, f.timeToLive))
    case To => f.(to := Some(AsText(v)))
    case EnqueuedTimeUtc => f.(enqueuedTimeUtc := parse(AsText(v)))
    case LockedUntilUtc => f.(lockedUntilUtc := parse(AsText(v)))
    case ScheduledEnqueueTimeUtc => f.(scheduledEnqueueTimeUtc := parse(AsText(v)))
  }

  /** The attributes assigned one after another, so a later entry for a name wins. */
  function AssignAll(f: BrokerFields, entries: seq<(string, JsonScalar)>, parse: string -> Option<Instant>): BrokerFields
    decreases |entries|
  {
    if entries == [] then f
    else
      var last := entries[|entries| - 1];
      Assign(AssignAll(f, entries[..|entries| - 1], parse), last.0, last.1, parse)
  }

  class BrokerProperties {
    var correlationId: Option<string>
    var deliveryCount: Option<int>
    var labelText: Option<string>
    var lockToken: Option<string>
    var messageId: Option<string>
    var partitionKey: Option<string>
    var replyTo: Option<string>
    var replyToSessionId: Option<string>
    var sequenceNumber: Option<string>
    var sessionId: Option<string>
    var timeToLive: Option<int>
    var to: Option<string>
    var enqueuedTimeUtc: Option<Instant>
    var lockedUntilUtc: Option<Instant>
    var scheduledEnqueueTimeUtc: Option<Instant>

    /** The value of every property. */
    function Fields(): BrokerFields
      reads this
    {
      BrokerFields(correlationId, deliveryCount, labelText, lockToken, messageId, partitionKey, replyTo,
        replyToSessionId, sequenceNumber, sessionId, timeToLive, to, enqueuedTimeUtc, lockedUntilUtc,
        scheduledEnqueueTimeUtc)
    }

    /** `new BrokerProperties($config)`: the configuration is applied, then `init()` runs. */
    constructor (config: BrokerFields, uniqid: string)
      ensures Fields() == WithDefaultMessageId(config, uniqid)
    {
      correlationId, deliveryCount, labelText, lockToken := config.correlationId, config.deliveryCount, config.labelText, config.lockToken;
      messageId, partitionKey, replyTo := config.messageId, config.partitionKey, config.replyTo;
      replyToSessionId, sequenceNumber, sessionId := config.replyToSessionId, config.sequenceNumber, config.sessionId;
      timeToLive, to := config.timeToLive, config.to;
      enqueuedTimeUtc, lockedUntilUtc, scheduledEnqueueTimeUtc := config.enqueuedTimeUtc, config.lockedUntilUtc, config.scheduledEnqueueTimeUtc;
      new;
      Init(uniqid);
    }

    /** `init()`. */
    method Init(uniqid: string)
      modifies this
      ensures Fields() == WithDefaultMessageId(old(Fields()), uniqid)
    {
      if messageId.None? {
        messageId := Some(uniqid);
      }
    }

    function GetEnqueuedTimeUtc(): Option<Instant> reads this { enqueuedTimeUtc }

    function GetLockedUntilUtc(): Option<Instant> reads this { lockedUntilUtc }

    function GetScheduledEnqueueTimeUtc(): Option<Instant> reads this { scheduledEnqueueTimeUtc }

    method SetEnqueuedTimeUtc(x: DateInput, parse: string -> Option<Instant>)
      modifies this
      ensures Fields() == old(Fields()).(enqueuedTimeUtc := ToInstant(x, parse))
      ensures GetEnqueuedTimeUtc() == ToInstant(x, parse)
    {
      enqueuedTimeUtc := ToInstant(x, parse);
    }

    method SetLockedUntilUtc(x: DateInput, parse: string -> Option<Instant>)
      modifies this
      ensures Fields() == old(Fields()).(lockedUntilUtc := ToInstant(x, parse))
      ensures GetLockedUntilUtc() == ToInstant(x, parse)
    {
      lockedUntilUtc := ToInstant(x, parse);
    }

    method SetScheduledEnqueueTimeUtc(x: DateInput, parse: string -> Option<Instant>)
      modifies this
      ensures Fields() == old(Fields()).(scheduledEnqueueTimeUtc := ToInstant(x, parse))
      ensures GetScheduledEnqueueTimeUtc() == ToInstant(x, parse)
    {
      scheduledEnqueueTimeUtc := ToInstant(x, parse);
    }

    /** `$this->$name = $value` for one decoded entry; the date properties go through their setters. */
    method SetAttribute(name: string, v: JsonScalar, parse: string -> Option<Instant>)
      modifies this
      ensures Fields() == Assign(old(Fields()), name, v, parse)
    {
      var property := AttributeOf(name);
      if property.None? {
        return;
      }
      ghost var before := Fields();
      assert Assign(before, name, v, parse) == AssignProperty(before, property.value, v, parse);
      match property.value {
        case CorrelationId => correlationId := Some(AsText(v));
        case DeliveryCount => deliveryCount := AsNumber(v, deliveryCount);
        case Label => labelText := Some(AsText(v));
        case LockToken => lockToken := Some(AsText(v));
        case MessageId => messageId := Some(AsText(v));
        case PartitionKey => partitionKey := Some(AsText(v));
        case ReplyTo => replyTo := Some(AsText(v));
        case ReplyToSessionId => replyToSessionId := Some(AsText(v));
        case SequenceNumber => sequenceNumber := Some(AsText(v));
        case SessionId => sessionId := Some(AsText(v));
        case TimeToLive => timeToLive := AsNumber(v, timeToLive);
        case To => to := Some(AsText(v));
        case EnqueuedTimeUtc => SetEnqueuedTimeUtc(DateText(AsText(v)), parse);
        case LockedUntilUtc => SetLockedUntilUtc(DateText(AsText(v)), parse);
        case ScheduledEnqueueTimeUtc => SetScheduledEnqueueTimeUtc(DateText(AsText(v)), parse);
      }
    }

    /** `setAttributes($values, false)`: each decoded entry assigned in turn. */
    method SetAttributes(entries: seq<(string, JsonScalar)>, parse: string -> Option<Instant>)
      modifies this
      ensures Fields() == AssignAll(old(Fields()), entries, parse)
    {
      var i := 0;
      while i < |entries|
        invariant 0 <= i <= |entries|
        invariant Fields() == AssignAll(old(Fields()), entries[..i], parse)
      {
        assert entries[..i + 1][..i] == entries[..i];
        SetAttribute(entries[i].0, entries[i].1, parse);
        i := i + 1;
      }
      assert entries[..i] == entries;
    }

    /** `__toString()`: the set settable properties, in order, handed to `json_encode`. */
    method ToString(encode: seq<(string, JsonScalar)> -> string, format: Instant -> string) returns (s: string)
      ensures s == encode(Settable(Fields(), format))
    {
      var values := SettableEntries(Fields(), SettableOrder, format);
      s := encode(values);
    }
  }
}

=== FILE: connstring.dfy ===
/**
 * `ConnectionStringParser`: reads `Key=Value;Key=Value;...` into a map of
 * settings, insists on the three keys a Service Bus connection needs and adds
 * the host of the endpoint. `parse_url` is passed in as the function that
 * yields the host component of a URL, if it has one.
 */
module ConnectionString {
  import opened Wrappers
  import opened Text

  datatype ParseError = Missing(name: string)

  const RequiredKeys: seq<string> := ["Endpoint", "SharedAccessKeyName", "SharedAccessKey"]

  /** `[$key, $value] = explode('=', $pair, 2)`: a pair without `=` has a null value. */
  function PairOf(pair: string): (r: (string, Option<string>))
    ensures r.1.None? <==> '=' !in pair
    ensures r.1.None? ==> r.0 == pair
    ensures r.1.Some? ==> r.0 + "=" + r.1.value == pair && '=' !in r.0
  {
    match SplitAtFirst(pair, '=')
    case None => (pair, None)
    case Some((key, value)) => (key, Some(value))
  }

  /** `explode(';', trim($connectionString, ';'))`. */
  function Pairs(connectionString: string): seq<string>
  {
    Explode(Trim(connectionString, ';'), ';')
  }

  /** `$result[$key] = $value` for every pair in turn. */
  function Collect(pairs: seq<string>): map<string, Option<string>>
    decreases |pairs|
  {
    if pairs == [] then map[]
    else
      var p := PairOf(pairs[|pairs| - 1]);
      Collect(pairs[..|pairs| - 1])[p.0 := p.1]
  }

  /** `isset($result[$name])`: present and not null. */
  predicate IsSet(result: map<string, Option<string>>, name: string)
  {
    name in result && result[name].Some?
  }

  /** The position of the first of `names[k..]` that is not set. */
  function FirstUnsetFrom(result: map<string, Option<string>>, names: seq<string>, k: nat): (r: Option<nat>)
    requires k <= |names|
    ensures r.None? <==> forall i | k <= i < |names| :: IsSet(result, names[i])
    ensures r.Some? ==> k <= r.value < |names| && !IsSet(result, names[r.value])
    ensures r.Some? ==> forall i | k <= i < r.value :: IsSet(result, names[i])
    decreases |names| - k
  {
    if k == |names| then None
    else if !IsSet(result, names[k]) then Some(k)
    else FirstUnsetFrom(result, names, k + 1)
  }

  /** The first of `names` that is not set. */
  function FirstMissing(result: map<string, Option<string>>, names: seq<string>): (r: Option<string>)
    ensures r.None? <==> forall i | 0 <= i < |names| :: IsSet(result, names[i])
    ensures r.Some? ==> r.value in names && !IsSet(result, r.value)
    ensures r.Some? ==> exists i | 0 <= i < |names| ::
      names[i] == r.value && forall j | 0 <= j < i :: IsSet(result, names[j])
  {
    match FirstUnsetFrom(result, names, 0)
    case None => None
    case Some(i) => Some(names[i])
  }

  /**
   * `parseConnectionString()`: the error names the first required key that is
   * not set; otherwise the result is every collected setting unchanged, with
   * `host` added (or replaced) as the endpoint's host, or empty without one.
   */
  function Parsed(connectionString: string, hostOf: string -> Option<string>): (r: Result<map<string, Option<string>>, ParseError>)
    ensures var result := Collect(Pairs(connectionString));
      r.Failure? <==> exists i | 0 <= i < |RequiredKeys| :: !IsSet(result, RequiredKeys[i])
    ensures var result := Collect(Pairs(connectionString));
      r.Failure? ==> exists i | 0 <= i < |RequiredKeys| ::
        RequiredKeys[i] == r.error.name && !IsSet(result, RequiredKeys[i])
        && forall j | 0 <= j < i :: IsSet(result, RequiredKeys[j])
    ensures var result := Collect(Pairs(connectionString));
      r.Success? ==>
        && (forall i | 0 <= i < |RequiredKeys| :: IsSet(r.value, RequiredKeys[i]))
        && r.value.Keys == result.Keys + {"host"}
        && (forall k | k in result && k != "host" :: r.value[k] == result[k])
        && IsSet(r.value, "Endpoint")
        && r.value["host"] == Some(hostOf(r.value["Endpoint"].value).GetOr(""))
  {
    var result := Collect(Pairs(connectionString));
    match FirstMissing(result, RequiredKeys)
    case Some(name) => Failure(Missing(name))
    case None =>
      assert IsSet(result, RequiredKeys[0]);
      var host := Some(hostOf(result["Endpoint"].value).GetOr(""));
      HostAdded(result, host);
      Success(result["host" := host])
  }

  /** Adding `host` keeps every other setting, and so every required key. */
  lemma HostAdded(result: map<string, Option<string>>, host: Option<string>)
    requires forall i | 0 <= i < |RequiredKeys| :: IsSet(result, RequiredKeys[i])
    ensures var r := result["host" := host];
      && (forall i | 0 <= i < |RequiredKeys| :: IsSet(r, RequiredKeys[i]))
      && r.Keys == result.Keys + {"host"}
      && (forall k | k in result && k != "host" :: r[k] == result[k])
      && IsSet(r, "Endpoint") && r["Endpoint"] == result["Endpoint"]
  {
    assert forall i | 0 <= i < |RequiredKeys| :: |RequiredKeys[i]| != |"host"|;
    assert RequiredKeys[0] == "Endpoint";
  }

  method ParseConnectionString(connectionString: string, hostOf: string -> Option<string>)
    returns (r: Result<map<string, Option<string>>, ParseError>)
    ensures r == Parsed(connectionString, hostOf)
  {
    var result := CollectPairs(Explode(Trim(connectionString, ';'), ';'));
    var missing := CheckRequired(result);
    if missing.Some? {
      return Failure(Missing(missing.value));
    }
    assert IsSet(result, RequiredKeys[0]);
    var parsed := hostOf(result["Endpoint"].value);
    r := Success(result["host" := Some(parsed.GetOr(""))]);
  }

  /** `foreach ($requiredKeys as $name) if (!isset($result[$name])) throw ...`: the first key that is not set. */
  method CheckRequired(result: map<string, Option<string>>) returns (missing: Option<string>)
    ensures missing == FirstMissing(result, RequiredKeys)
  {
    var j := 0;
    while j < |RequiredKeys|
      invariant 0 <= j <= |RequiredKeys|
      invariant forall k | 0 <= k < j :: IsSet(result, RequiredKeys[k])
    {
      if !IsSet(result, RequiredKeys[j]) {
        assert FirstUnsetFrom(result, RequiredKeys, 0) == Some(j);
        return Some(RequiredKeys[j]);
      }
      j := j + 1;
    }
    missing := None;
  }

  /** `foreach (... as $pair) { ...; $result[$key] = $value; }`. */
  method CollectPairs(pairs: seq<string>) returns (result: map<string, Option<string>>)
    ensures result == Collect(pairs)
  {
    result := map[];
    var i := 0;
    while i < |pairs|
      invariant 0 <= i <= |pairs|
      invariant result == Collect(pairs[..i])
    {
      var p := PairOf(pairs[i]);
      result := result[p.0 := p.1];
      assert pairs[..i + 1][..i] == pairs[..i];
      i := i + 1;
    }
    assert pairs[..i] == pairs;
  }

  /** A key is in the settings exactly when some pair names it. */
  lemma {:induction false} CollectKeys(pairs: seq<string>, key: string)
    ensures key in Collect(pairs) <==> exists i | 0 <= i < |pairs| :: PairOf(pairs[i]).0 == key
    decreases |pairs|
  {
    if pairs != [] {
      var n := |pairs| - 1;
      CollectKeys(pairs[..n], key);
      if PairOf(pairs[n]).0 != key && key !in Collect(pairs) {
        forall i | 0 <= i < |pairs| ensures PairOf(pairs[i]).0 != key {
          if i < n { assert pairs[i] == pairs[..n][i]; }
        }
      }
      if key in Collect(pairs[..n]) {
        var i :| 0 <= i < n && PairOf(pairs[..n][i]).0 == key;
        assert pairs[i] == pairs[..n][i];
      }
    }
  }

  /** Of several pairs with the same key the last one wins. */
  lemma {:induction false} LaterPairWins(pairs: seq<string>, i: nat)
    requires i < |pairs|
    requires forall j | i < j < |pairs| :: PairOf(pairs[j]).0 != PairOf(pairs[i]).0
    ensures PairOf(pairs[i]).0 in Collect(pairs)
    ensures Collect(pairs)[PairOf(pairs[i]).0] == PairOf(pairs[i]).1
    decreases |pairs|
  {
    var n := |pairs| - 1;
    if i < n {
      var prefix := pairs[..n];
      assert prefix[i] == pairs[i];
      forall j | i < j < |prefix| ensures PairOf(prefix[j]).0 != PairOf(prefix[i]).0 {
        assert prefix[j] == pairs[j];
      }
      LaterPairWins(prefix, i);
    }
  }

  /** A key and a value written as one setting, `Key=Value`. */
  function Render(settings: seq<(string, string)>): (r: seq<string>)
    ensures |r| == |settings|
    ensures forall i | 0 <= i < |r| :: r[i] == settings[i].0 + "=" + settings[i].1
  {
    if settings == [] then [] else [settings[0].0 + "=" + settings[0].1] + Render(settings[1..])
  }

  /** A connection string holding the given settings in order. */
  function Format(settings: seq<(string, string)>): string
  {
    Join(Render(settings), ';')
  }

  /** The settings as a map, a later setting replacing an earlier one with its key. */
  function SettingsMap(settings: seq<(string, string)>): map<string, Option<string>>
    decreases |settings|
  {
    if settings == [] then map[]
    else
      var s := settings[|settings| - 1];
      SettingsMap(settings[..|settings| - 1])[s.0 := Some(s.1)]
  }

  /** Keys that a connection string can carry unambiguously; values may hold `=`, such as Base64 padding. */
  predicate WellFormed(settings: seq<(string, string)>)
  {
    forall i | 0 <= i < |settings| :: ';' !in settings[i].0 && '=' !in settings[i].0 && ';' !in settings[i].1
  }

  lemma {:induction false} CollectRender(settings: seq<(string, string)>)
    requires WellFormed(settings)
    ensures Collect(Render(settings)) == SettingsMap(settings)
    decreases |settings|
  {
    if settings != [] {
      var n := |settings| - 1;
      var prefix := settings[..n];
      assert WellFormed(prefix) by {
        forall i | 0 <= i < n ensures ';' !in prefix[i].0 && '=' !in prefix[i].0 && ';' !in prefix[i].1 {
          assert prefix[i] == settings[i];
        }
      }
      var parts := Render(settings);
      assert parts[..n] == Render(prefix);
      CollectRender(prefix);
      PairOfSetting(settings[n].0, settings[n].1);
    }
  }

  /** A rendered setting splits back at its first `=`. */
  lemma PairOfSetting(key: string, value: string)
    requires '=' !in key
    ensures PairOf(key + "=" + value) == (key, Some(value))
  {
    assert key + "=" + value == key + ['='] + value;
    SplitAtFirstOf(key, value, '=');
  }

  lemma JoinNoSeparator(parts: seq<string>, c: char)
    requires forall i | 0 <= i < |parts| :: c !in parts[i]
    requires |parts| >= 1 && parts[0] != [] && parts[|parts| - 1] != []
    ensures var s := Join(parts, c); |s| > 0 && s[0] != c && s[|s| - 1] != c
  {
    JoinLast(parts, c);
    assert parts[0][0] in parts[0];
    assert parts[|parts| - 1][|parts[|parts| - 1]| - 1] in parts[|parts| - 1];
  }

  lemma {:induction false} JoinLast(parts: seq<string>, c: char)
    requires |parts| >= 1 && parts[|parts| - 1] != []
    ensures var s := Join(parts, c); |s| > 0 && s[|s| - 1] == parts[|parts| - 1][|parts[|parts| - 1]| - 1]
    ensures parts[0] != [] ==> Join(parts, c)[0] == parts[0][0]
  {
    if |parts| > 1 {
      assert parts[1..][|parts[1..]| - 1] == parts[|parts| - 1];
      JoinLast(parts[1..], c);
    }
  }

  lemma TrimUntouched(s: string, c: char)
    requires |s| > 0 && s[0] != c && s[|s| - 1] != c
    ensures Trim(s, c) == s
  {
  }

  /**
   * Parsing a formatted connection string gives its settings back, plus the
   * host of the endpoint, once the three required keys are among them.
   */
  lemma ParseFormat(settings: seq<(string, string)>, hostOf: string -> Option<string>)
    requires WellFormed(settings) && |settings| > 0
    requires forall k | k in RequiredKeys :: exists i | 0 <= i < |settings| :: settings[i].0 == k
    ensures var m := SettingsMap(settings);
      "Endpoint" in m && m["Endpoint"].Some?
      && Parsed(Format(settings), hostOf) == Success(m["host" := Some(hostOf(m["Endpoint"].value).GetOr(""))])
  {
    PairsOfFormat(settings);
    CollectRender(settings);
    RequiredPresent(settings);
    var m := SettingsMap(settings);
    assert FirstMissing(m, RequiredKeys) == None;
  }

  lemma RequiredPresent(settings: seq<(string, string)>)
    requires forall k | k in RequiredKeys :: exists i | 0 <= i < |settings| :: settings[i].0 == k
    ensures forall i | 0 <= i < |RequiredKeys| :: IsSet(SettingsMap(settings), RequiredKeys[i])
  {
    forall n | 0 <= n < |RequiredKeys| ensures IsSet(SettingsMap(settings), RequiredKeys[n]) {
      assert RequiredKeys[n] in RequiredKeys;
      var i :| 0 <= i < |settings| && settings[i].0 == RequiredKeys[n];
      SettingsMapHas(settings, i);
    }
  }

  /** A formatted connection string splits back into its rendered settings. */
  lemma PairsOfFormat(settings: seq<(string, string)>)
    requires WellFormed(settings) && |settings| > 0
    ensures Pairs(Format(settings)) == Render(settings)
  {
    var parts := Render(settings);
    forall i | 0 <= i < |parts| ensures ';' !in parts[i] {
      RenderedWithoutSeparator(settings[i].0, settings[i].1);
    }
    var last := settings[|settings| - 1];
    assert parts[0][|settings[0].0|] == '=';
    assert parts[|parts| - 1][|last.0|] == '=';
    JoinNoSeparator(parts, ';');
    TrimUntouched(Format(settings), ';');
    ExplodeJoin(parts, ';');
  }

  lemma RenderedWithoutSeparator(key: string, value: string)
    requires ';' !in key && ';' !in value
    ensures ';' !in key + "=" + value
  {
    var t := key + "=" + value;
    forall k | 0 <= k < |t| ensures t[k] != ';' {
      if k < |key| { assert t[k] == key[k]; }
      else if k > |key| { assert t[k] == value[k - |key| - 1]; }
    }
  }

  lemma {:induction false} SettingsMapHas(settings: seq<(string, string)>, i: nat)
    requires i < |settings|
    ensures settings[i].0 in SettingsMap(settings) && SettingsMap(settings)[settings[i].0].Some?
    decreases |settings|
  {
    var n := |settings| - 1;
    if i < n && settings[n].0 != settings[i].0 {
      assert settings[..n][i] == settings[i];
      SettingsMapHas(settings[..n], i);
    }
  }

  /** A connection string without the shared access key, say, is rejected naming that key. */
  lemma MissingRequiredKey(connectionString: string, hostOf: string -> Option<string>, name: string)
    requires name in RequiredKeys
    requires !IsSet(Collect(Pairs(connectionString)), name)
    ensures Parsed(connectionString, hostOf).Failure?
    ensures Parsed(connectionString, hostOf).error.name in RequiredKeys
  {
    var result := Collect(Pairs(connectionString));
    var k :| 0 <= k < |RequiredKeys| && RequiredKeys[k] == name;
    assert !IsSet(result, RequiredKeys[k]);
  }
}

=== FILE: message.dfy ===
/**
 * `Message`: a body with its metadata and a map of custom properties whose
 * names are case-insensitive because they are stored lower-cased.
 */
module Messages {
  import opened Wrappers
  import opened Text
  import opened Broker

  /** Every key is its own lower-case form. */
  predicate LowerKeys<V>(props: map<string, V>)
  {
    forall k | k in props :: Lower(k) == k
  }

  /** `getProperty($name)`: the value under the lower-cased name, null when absent. */
  function Lookup<V>(props: map<string, V>, name: string): Option<V>
  {
    if Lower(name) in props then Some(props[Lower(name)]) else None
  }

  /** `setProperty($name, $value)`: stores the value under the lower-cased name. */
  function Store<V>(props: map<string, V>, name: string, v: V): map<string, V>
  {
    props[Lower(name) := v]
  }

  /** A stored value is read back under every spelling of its name that differs only in case. */
  lemma StoreThenLookup<V>(props: map<string, V>, name: string, v: V, other: string)
    requires Lower(other) == Lower(name)
    ensures Lookup(Store(props, name, v), other) == Some(v)
  {
  }

  /** Names that differ after lower-casing are untouched by a store. */
  lemma StoreKeepsOthers<V>(props: map<string, V>, name: string, v: V, other: string)
    requires Lower(other) != Lower(name)
    ensures Lookup(Store(props, name, v), other) == Lookup(props, other)
  {
  }

  /** A second store under the same name, in whatever case, replaces the first. */
  lemma StoreOverwrites<V>(props: map<string, V>, name: string, v: V, name2: string, v2: V)
    requires Lower(name2) == Lower(name)
    ensures Store(Store(props, name, v), name2, v2) == Store(props, name2, v2)
  {
  }

  /** Storing keeps every key lower-case. */
  lemma StoreKeepsLowerKeys<V>(props: map<string, V>, name: string, v: V)
    requires LowerKeys(props)
    ensures LowerKeys(Store(props, name, v))
  {
    LowerIdempotent(name);
  }

  /** A name whose lower-cased form is not stored reads as null. */
  lemma LookupAbsent<V>(props: map<string, V>, name: string)
    requires LowerKeys(props)
    requires forall k | k in props :: k != Lower(name)
    ensures Lookup(props, name).None?
  {
  }

  class Message {
    var body: Option<string>
    var brokerProperties: BrokerProperties?
    var contentType: Option<string>
    var date: Option<string>
    var location: Option<string>
    var customProperties: map<string, JsonScalar>

    ghost predicate Valid()
      reads this
    {
      LowerKeys(customProperties)
    }

    /** `new Message([...])` with the given fields and no custom property. */
    constructor (body: Option<string>, contentType: Option<string>, date: Option<string>, location: Option<string>)
      ensures Valid()
      ensures this.body == body && this.contentType == contentType && this.date == date && this.location == location
      ensures brokerProperties == null && customProperties == map[]
    {
      this.body, this.contentType, this.date, this.location := body, contentType, date, location;
      brokerProperties := null;
      customProperties := map[];
    }

    /** `getProperties()`: all custom properties, every key lower-case. */
    function GetProperties(): (r: map<string, JsonScalar>)
      reads this
      requires Valid()
      ensures LowerKeys(r)
    {
      customProperties
    }

    /**
     * `getProperty($name)`: the `?string` return type coerces a stored
     * number to its decimal form; an absent name gives null.
     */
    function GetProperty(name: string): (r: Option<string>)
      reads this
      ensures r.Some? <==> Lower(name) in customProperties
      ensures r.Some? && customProperties[Lower(name)].JString? ==> r.value == customProperties[Lower(name)].s
      ensures r.Some? && customProperties[Lower(name)].JNumber? ==> ParseInt(r.value) == Some(customProperties[Lower(name)].n)
    {
      match Lookup<JsonScalar>(customProperties, name)
      case None => None
      case Some(JString(t)) => Some(t)
      case Some(JNumber(n)) => ParseDecimalString(n); Some(AsText(JNumber(n)))
    }

    /** `setProperty($name, $value)`. */
    method SetProperty(name: string, v: JsonScalar)
      requires Valid()
      modifies this
      ensures Valid()
      ensures customProperties == Store(old(customProperties), name, v)
      ensures Lookup(customProperties, name) == Some(v) && GetProperty(name) == Some(AsText(v))
      ensures body == old(body) && brokerProperties == old(brokerProperties) && contentType == old(contentType)
      ensures date == old(date) && location == old(location)
    {
      StoreKeepsLowerKeys(customProperties, name, v);
      customProperties := customProperties[Lower(name) := v];
    }
  }
}

=== FILE: percent.dfy ===
/**
 * Percent-encoding of byte strings (section 2.1 of RFC 3986) as PHP's
 * `urlencode` (form style: a space becomes `+`, `~` is escaped) and
 * `rawurlencode` (`~` kept) produce it, with upper-case hex digits, and the
 * regular-expression pass `/%[0-9A-F]{2}/` -> `strtolower` that the client runs
 * over it. Decoding is the partner that says the encoding loses nothing.
 */
module Percent {
  import opened Text

  /** `urlencode` is Form, `rawurlencode` is Raw. */
  datatype Style = Form | Raw

  predicate IsAlnum(c: char) { 'a' <= c <= 'z' || 'A' <= c <= 'Z' || '0' <= c <= '9' }

  /** Octets each function copies through unchanged. */
  predicate Unreserved(style: Style, c: char)
  {
    IsAlnum(c) || c == '-' || c == '_' || c == '.' || (style == Raw && c == '~')
  }

  /** The characters an encoding may contain. */
  predicate InEncodedAlphabet(c: char)
  {
    IsAlnum(c) || c == '-' || c == '_' || c == '.' || c == '~' || c == '+' || c == '%'
  }

  predicate IsUpperHex(c: char) { '0' <= c <= '9' || 'A' <= c <= 'F' }

  predicate IsLowerHex(c: char) { '0' <= c <= '9' || 'a' <= c <= 'f' }

  function HexDigit(d: nat, upper: bool): (r: char)
    requires d < 16
    ensures upper ==> IsUpperHex(r)
    ensures !upper ==> IsLowerHex(r)
  {
    if d < 10 then ('0' as int + d) as char
    else if upper then ('A' as int + d - 10) as char
    else ('a' as int + d - 10) as char
  }

  function HexValue(c: char): nat
    requires IsUpperHex(c) || IsLowerHex(c)
  {
    if '0' <= c <= '9' then c as int - '0' as int
    else if 'A' <= c <= 'F' then c as int - 'A' as int + 10
    else c as int - 'a' as int + 10
  }

  /** The escape `%XY` of one octet. */
  function Escape(c: char, upper: bool): string
    requires c as int < 256
  {
    ['%', HexDigit(c as int / 16, upper), HexDigit(c as int % 16, upper)]
  }

  function EncodeOctet(style: Style, c: char, upper: bool): string
    requires c as int < 256
  {
    if Unreserved(style, c) then [c]
    else if style == Form && c == ' ' then "+"
    else Escape(c, upper)
  }

  /** Octet by octet, with upper- or lower-case hex digits in the escapes. */
  function EncodeWith(style: Style, s: ByteString, upper: bool): (r: string)
    ensures forall i | 0 <= i < |r| :: InEncodedAlphabet(r[i])
  {
    if s == [] then [] else EncodeOctet(style, s[0], upper) + EncodeWith(style, s[1..], upper)
  }

  /** PHP `urlencode`. */
  function UrlEncode(s: ByteString): string { EncodeWith(Form, s, true) }

  /** PHP `rawurlencode`. */
  function RawUrlEncode(s: ByteString): string { EncodeWith(Raw, s, true) }

  /**
   * `preg_replace_callback('/%[0-9A-F]{2}/', strtolower, s)`: leftmost,
   * non-overlapping matches, each lower-cased; everything else copied.
   */
  function LowerEscapes(s: string): string
    decreases |s|
  {
    if |s| >= 3 && s[0] == '%' && IsUpperHex(s[1]) && IsUpperHex(s[2]) then
      ['%', LowerChar(s[1]), LowerChar(s[2])] + LowerEscapes(s[3..])
    else if s == [] then []
    else [s[0]] + LowerEscapes(s[1..])
  }

  /** Lower-casing the escapes of an encoding is the same encoding with lower-case hex digits. */
  lemma {:induction false} LowerEscapesOfEncoding(style: Style, s: ByteString)
    ensures LowerEscapes(EncodeWith(style, s, true)) == EncodeWith(style, s, false)
  {
    if s != [] {
      LowerEscapesOfEncoding(style, s[1..]);
      LowerEscapesOfOctet(style, s[0], EncodeWith(style, s[1..], true));
    }
  }

  /** One encoded octet with its escape lower-cased, whatever follows it. */
  lemma LowerEscapesOfOctet(style: Style, c: char, rest: string)
    requires c as int < 256
    ensures LowerEscapes(EncodeOctet(style, c, true) + rest) == EncodeOctet(style, c, false) + LowerEscapes(rest)
  {
    var head := EncodeOctet(style, c, true);
    var t := head + rest;
    if |head| == 3 {
      var b := c as int;
      assert t[3..] == rest;
      assert LowerChar(HexDigit(b / 16, true)) == HexDigit(b / 16, false);
      assert LowerChar(HexDigit(b % 16, true)) == HexDigit(b % 16, false);
    } else {
      assert t[0] != '%' && t[1..] == rest;
    }
  }

  /** Every `%` opens an escape of two lower-case hex digits. */
  predicate LowerHexEscapes(t: string)
  {
    forall i | 0 <= i < |t| && t[i] == '%' :: i + 2 < |t| && IsLowerHex(t[i + 1]) && IsLowerHex(t[i + 2])
  }

  lemma {:induction false} LowerHexEncoding(style: Style, s: ByteString)
    ensures LowerHexEscapes(EncodeWith(style, s, false))
  {
    if s != [] {
      var head := EncodeOctet(style, s[0], false);
      var tail := EncodeWith(style, s[1..], false);
      var t := head + tail;
      LowerHexEncoding(style, s[1..]);
      OctetEscapes(style, s[0]);
      forall i | 0 <= i < |t| && t[i] == '%'
        ensures i + 2 < |t| && IsLowerHex(t[i + 1]) && IsLowerHex(t[i + 2])
      {
        if i >= |head| {
          assert t[i] == tail[i - |head|];
          assert t[i + 1] == tail[i + 1 - |head|] && t[i + 2] == tail[i + 2 - |head|];
        } else {
          assert head[i] == '%';
          assert t[1] == head[1] && t[2] == head[2];
        }
      }
    }
  }

  /** In one lower-case encoded octet a `%` can only open a three-character escape. */
  lemma OctetEscapes(style: Style, c: char)
    requires c as int < 256
    ensures var h := EncodeOctet(style, c, false);
      forall i | 0 <= i < |h| && h[i] == '%' :: i == 0 && |h| == 3 && IsLowerHex(h[1]) && IsLowerHex(h[2])
  {
  }

  /** Percent-decoding; in form style a `+` stands for a space. Hex digits of either case are read. */
  function PercentDecode(style: Style, t: string): string
    decreases |t|
  {
    if |t| >= 3 && t[0] == '%' && (IsUpperHex(t[1]) || IsLowerHex(t[1])) && (IsUpperHex(t[2]) || IsLowerHex(t[2])) then
      [(16 * HexValue(t[1]) + HexValue(t[2])) as char] + PercentDecode(style, t[3..])
    else if t == [] then []
    else if style == Form && t[0] == '+' then [' '] + PercentDecode(style, t[1..])
    else [t[0]] + PercentDecode(style, t[1..])
  }

  lemma HexDigitValue(d: nat, upper: bool)
    requires d < 16
    ensures HexValue(HexDigit(d, upper)) == d
  {
  }

  /** One encoded octet decodes back to that octet, whatever follows it. */
  lemma DecodeOctet(style: Style, c: char, upper: bool, rest: string)
    requires c as int < 256
    ensures PercentDecode(style, EncodeOctet(style, c, upper) + rest) == [c] + PercentDecode(style, rest)
  {
    var head := EncodeOctet(style, c, upper);
    var t := head + rest;
    if |head| == 3 {
      var b := c as int;
      assert t[0] == '%' && t[1] == HexDigit(b / 16, upper) && t[2] == HexDigit(b % 16, upper);
      assert t[3..] == rest;
      HexDigitValue(b / 16, upper);
      HexDigitValue(b % 16, upper);
      assert 16 * (b / 16) + b % 16 == b;
    } else {
      assert t[0] != '%' && t[1..] == rest;
    }
  }

  /** Decoding an encoding, whatever the case of its hex digits, gives the octets back. */
  lemma {:induction false} DecodeEncode(style: Style, s: ByteString, upper: bool)
    ensures PercentDecode(style, EncodeWith(style, s, upper)) == s
  {
    if s != [] {
      DecodeOctet(style, s[0], upper, EncodeWith(style, s[1..], upper));
      DecodeEncode(style, s[1..], upper);
      assert [s[0]] + s[1..] == s;
    }
  }
}

=== FILE: queue.dfy ===
/**
 * `Queue`: the yii2-queue driver on top of `ServiceBus`. The worker loop polls
 * in peek-lock mode, hands every message to the job handler and deletes it
 * only when the handler succeeded; `pushMessage` builds the outgoing envelope.
 * The framework's `canContinue` callback, the job handler and the outcomes of
 * the service-bus calls are inputs.
 */
module QueueDriver {
  import opened Wrappers
  import opened Text
  import opened Broker
  import opened Messages
  import opened ServiceBusAuth
  import opened ServiceBus

  const Priority: string := "yii-priority"

  const PushContentType: string := "application/vnd.microsoft.servicebus.yml"

  const DefaultTimeout: int := 30

  // ---------------------------------------------------------------- run

  /** What a receive hands the loop: the body, the decoded envelope (if any) and the lock location. */
  datatype Delivery = Delivery(body: Option<string>, properties: Option<BrokerFields>, location: Option<string>)

  /** One `receiveMessage` call: a message, null, or an exception. */
  datatype Poll = Hit(delivery: Delivery) | Empty | Fault(reason: string)

  /** The arguments of `handleMessage($id, $message, $ttr, $attempt)`. */
  datatype HandlerCall = HandlerCall(id: Option<string>, body: Option<string>, ttr: Option<int>, attempt: Option<int>)

  datatype Event =
    | Received(poll: nat, request: HttpRequest)
    | Handled(poll: nat, call: HandlerCall, ok: bool)
    | Deleted(poll: nat, path: string)

  datatype Stop = Cancelled | Drained | Failed(reason: string)

  /**
   * The inputs of one worker run: the answers `canContinue()` gives in turn
   * (false once they run out), and, by poll number, what the receive yields,
   * what the handler returns and whether the delete throws.
   */
  datatype Worker = Worker(
    config: Config,
    repeat: bool,
    timeout: int,
    canContinue: seq<bool>,
    poll: nat -> Poll,
    handled: nat -> bool,
    deleteFault: nat -> Option<string>,
    pathOf: string -> Option<string>)

  /** The job handler's arguments, read from the envelope. */
  function CallOf(d: Delivery): HandlerCall
  {
    match d.properties
    case None => HandlerCall(None, d.body, None, None)
    case Some(f) => HandlerCall(f.messageId, d.body, f.timeToLive, f.deliveryCount)
  }

  function Prepend(events: seq<Event>, run: (seq<Event>, Stop)): (seq<Event>, Stop)
  {
    (events + run.0, run.1)
  }

  /** The events and the way the loop ends, from iteration `k` on. */
  function RunFrom(w: Worker, k: nat): (seq<Event>, Stop)
    decreases |w.canContinue| - k
  {
    if k >= |w.canContinue| || !w.canContinue[k] then ([], Cancelled)
    else
      var receive := Received(k, ReceiveRequest(w.config, PeekLock, Some(w.timeout)));
      match w.poll(k)
      case Fault(e) => ([receive], Failed(e))
      case Empty => if w.repeat then Prepend([receive], RunFrom(w, k + 1)) else ([receive], Drained)
      case Hit(d) =>
        var handled := Handled(k, CallOf(d), w.handled(k));
        if !w.handled(k) then Prepend([receive, handled], RunFrom(w, k + 1))
        else
          var delete := Deleted(k, LockLocationPath(d.location, w.pathOf));
          match w.deleteFault(k)
          case Some(e) => ([receive, handled, delete], Failed(e))
          case None => Prepend([receive, handled, delete], RunFrom(w, k + 1))
  }

  /**
   * One pass of `run`'s loop at iteration `k`: the events it adds, and the way
   * the loop ends when this pass ends it.
   */
  method Step(w: Worker, k: nat) returns (events: seq<Event>, end: Option<Stop>)
    requires k < |w.canContinue| && w.canContinue[k]
    ensures end.None? ==> RunFrom(w, k) == Prepend(events, RunFrom(w, k + 1))
    ensures end.Some? ==> RunFrom(w, k) == (events, end.value)
  {
    var request := ReceiveRequest(w.config, PeekLock, Some(w.timeout));
    var receive := Received(k, request);
    events := [receive];
    var message := w.poll(k);
    if message.Fault? {
      return events, Some(Failed(message.reason));
    }
    end := None;
    if message.Hit? {
      var ok := w.handled(k);
      var handled := Handled(k, CallOf(message.delivery), ok);
      events := [receive, handled];
      if ok {
        events := [receive, handled, Deleted(k, LockLocationPath(message.delivery.location, w.pathOf))];
        var fault := w.deleteFault(k);
        if fault.Some? {
          end := Some(Failed(fault.value));
        }
      }
    } else if !w.repeat {
      end := Some(Drained);
    }
  }

  /** `run($repeat, $timeout)`: the loop handed to `runWorker`. */
  method Run(w: Worker) returns (trace: seq<Event>, stop: Stop)
    ensures (trace, stop) == RunFrom(w, 0)
  {
    trace := [];
    var k := 0;
    assert trace + RunFrom(w, k).0 == RunFrom(w, k).0;
    while k < |w.canContinue| && w.canContinue[k]
      invariant RunFrom(w, 0).0 == trace + RunFrom(w, k).0
      invariant RunFrom(w, 0).1 == RunFrom(w, k).1
      decreases |w.canContinue| - k
    {
      var events, end := Step(w, k);
      if end.Some? {
        return trace + events, end.value;
      }
      trace := trace + events;
      k := k + 1;
    }
    assert RunFrom(w, k) == ([], Cancelled);
    assert trace + [] == trace;
    stop := Cancelled;
  }

  /** Every receive of the loop is a peek-lock receive with the configured timeout. */
  lemma {:induction false} ReceivesPeekLock(w: Worker, k: nat)
    ensures forall e | e in RunFrom(w, k).0 && e.Received? ::
      e.request == ReceiveRequest(w.config, PeekLock, Some(w.timeout)) && e.request.verb == "POST"
    decreases |w.canContinue| - k
  {
    if k < |w.canContinue| && w.canContinue[k] {
      ReceivesPeekLock(w, k + 1);
    }
  }

  /** Receive `i` happens only after `canContinue()` answered true at every check up to the `i`-th. */
  lemma {:induction false} ReceivesFollowChecks(w: Worker, k: nat)
    ensures forall e | e in RunFrom(w, k).0 ::
      k <= e.poll < |w.canContinue| && forall j | k <= j <= e.poll :: w.canContinue[j]
    decreases |w.canContinue| - k
  {
    if k < |w.canContinue| && w.canContinue[k] {
      ReceivesFollowChecks(w, k + 1);
    }
  }

  predicate DeletedAt(trace: seq<Event>, i: nat)
  {
    exists e | e in trace :: e.Deleted? && e.poll == i
  }

  predicate HandledOkAt(trace: seq<Event>, i: nat)
  {
    exists e | e in trace :: e.Handled? && e.poll == i && e.ok
  }

  /**
   * A message is deleted exactly when the handler returned true for it; a
   * failed handler leaves it locked, to reappear once the lock expires.
   */
  lemma {:induction false} DeleteIffHandled(w: Worker, k: nat, i: nat)
    ensures DeletedAt(RunFrom(w, k).0, i) <==> HandledOkAt(RunFrom(w, k).0, i)
    ensures DeletedAt(RunFrom(w, k).0, i) ==> w.poll(i).Hit? && w.handled(i)
    decreases |w.canContinue| - k
  {
    if k < |w.canContinue| && w.canContinue[k] {
      DeleteIffHandled(w, k + 1, i);
      ReceivesFollowChecks(w, k + 1);
    }
  }

  /**
   * The loop ends on an empty queue exactly when `repeat` is false and the
   * last thing it did was an empty receive.
   */
  lemma {:induction false} DrainedOnlyWithoutRepeat(w: Worker, k: nat)
    ensures RunFrom(w, k).1 == Drained ==>
      !w.repeat && |RunFrom(w, k).0| > 0
      && var last := RunFrom(w, k).0[|RunFrom(w, k).0| - 1];
         last.Received? && w.poll(last.poll).Empty?
    ensures (!w.repeat && |RunFrom(w, k).0| > 0
      && var last := RunFrom(w, k).0[|RunFrom(w, k).0| - 1];
         last.Received? && w.poll(last.poll).Empty?) ==> RunFrom(w, k).1 == Drained
    decreases |w.canContinue| - k
  {
    if k < |w.canContinue| && w.canContinue[k] {
      DrainedOnlyWithoutRepeat(w, k + 1);
    }
  }

  /** An empty receive with `repeat` set goes on to the next check of `canContinue()`. */
  lemma EmptyPollContinues(w: Worker, k: nat)
    requires w.repeat && k < |w.canContinue| && w.canContinue[k] && w.poll(k).Empty?
    ensures RunFrom(w, k).0 == [Received(k, ReceiveRequest(w.config, PeekLock, Some(w.timeout)))] + RunFrom(w, k + 1).0
    ensures RunFrom(w, k).1 == RunFrom(w, k + 1).1
  {
  }

  /** A false answer from `canContinue()` ends the loop at once, with nothing more received. */
  lemma {:induction false} CancelledLoopReceivesNoMore(w: Worker, k: nat, n: nat)
    requires k <= n && (n >= |w.canContinue| || !w.canContinue[n])
    ensures forall e | e in RunFrom(w, k).0 :: e.poll < n
  {
    ReceivesFollowChecks(w, k);
  }

  // ---------------------------------------------------------------- status

  datatype QueueError = NotSupported(reason: string)

  /** `status($id)`: not supported by this driver, whatever the id. */
  function Status(id: string): (r: Result<(), QueueError>)
    ensures r.Failure? && r.error.NotSupported?
  {
    Failure(NotSupported("Status is not supported in the driver."))
  }

  // ---------------------------------------------------------------- push

  /** The envelope `pushMessage` gives its message: time to live `ttr`, scheduled `delay` seconds from now. */
  function PushFields(ttr: int, delay: int, now: Instant, uniqid: string): BrokerFields
  {
    WithDefaultMessageId(PushConfig(ttr, delay, now), uniqid)
  }

  /** The configuration of the pushed `BrokerProperties`; the Carbon instant goes through its setter unchanged. */
  function PushConfig(ttr: int, delay: int, now: Instant): BrokerFields
  {
    Unset.(timeToLive := Some(ttr), scheduledEnqueueTimeUtc := ToInstant(DateValue(now + delay), _ => None))
  }

  /** `$priority ?? 'low'`. */
  function PriorityOf(priority: Option<JsonScalar>): JsonScalar
  {
    priority.GetOr(JString("low"))
  }

  /** The request `pushMessage` sends. */
  function PushRequest(config: Config, message: string, ttr: int, delay: int, priority: Option<JsonScalar>,
                       now: Instant, uniqid: string, codecs: Codecs): HttpRequest
  {
    HttpRequest("POST", config.queue + "/messages", None,
      SendHeaders(Some(PushContentType), Some(codecs.jsonEncodeFields(Settable(PushFields(ttr, delay, now, uniqid), codecs.dates.format))),
                  map[Priority := PriorityOf(priority)], codecs.jsonEncodeValue),
      Some(message))
  }

  /**
   * `pushMessage($message, $ttr, $delay, $priority)` at clock reading `now`:
   * the job is sent with its envelope and priority, and the envelope's message
   * id is returned once the send is accepted.
   */
  method PushMessage(config: Config, message: string, ttr: int, delay: int, priority: Option<JsonScalar>,
                     now: Instant, uniqid: string, transport: Transport, codecs: Codecs)
    returns (request: HttpRequest, r: Result<string, Error>)
    ensures request == PushRequest(config, message, ttr, delay, priority, now, uniqid, codecs)
    ensures match transport(request)
      case Failure(e) => r == Failure(TransportFailure(e))
      case Success(resp) => r == (if resp.status == 201 then Success(uniqid) else Failure(UnexpectedStatus(resp.status)))
  {
    var azureMessage := NewPushMessage(message, ttr, delay, priority, now, uniqid, codecs);
    var sent;
    request, sent := SendMessage(config, azureMessage, transport, codecs);
    if sent.Failure? {
      return request, Failure(sent.error);
    }
    r := Success(azureMessage.brokerProperties.messageId.value);
  }

  lemma PriorityIsLowerCase()
    ensures Lower(Priority) == Priority
  {
    assert NoUpper(Priority) by {
      forall i | 0 <= i < |Priority| ensures !IsUpper(Priority[i]) {}
    }
    LowerOfNoUpper(Priority);
  }

  /** `new Message([...])` with the pushed body, content type, envelope and priority. */
  method NewPushMessage(message: string, ttr: int, delay: int, priority: Option<JsonScalar>,
                        now: Instant, uniqid: string, codecs: Codecs)
    returns (azureMessage: Message)
    ensures fresh(azureMessage) && azureMessage.brokerProperties != null && azureMessage.Valid()
    ensures azureMessage.body == Some(message) && azureMessage.contentType == Some(PushContentType)
    ensures azureMessage.customProperties == map[Priority := PriorityOf(priority)]
    ensures azureMessage.brokerProperties.Fields() == PushFields(ttr, delay, now, uniqid)
  {
    ghost var fields := PushFields(ttr, delay, now, uniqid);
    var properties := new BrokerProperties(PushConfig(ttr, delay, now), uniqid);
    assert properties.Fields() == fields;
    azureMessage := new Message(Some(message), Some(PushContentType), None, None);
    azureMessage.brokerProperties := properties;
    var value := PriorityOf(priority);
    azureMessage.SetProperty(Priority, value);
    PriorityStore(value);
    assert azureMessage.brokerProperties == properties && properties.Fields() == fields;
  }

  /** Storing the priority in an empty property map keeps its spelling. */
  lemma PriorityStore(v: JsonScalar)
    ensures Store(map[], Priority, v) == map[Priority := v]
  {
    PriorityIsLowerCase();
  }

  /**
   * The pushed envelope serialises to exactly the message id, the time to
   * live and the scheduled time, in that order, and carries no server-assigned field.
   */
  lemma PushEnvelope(ttr: int, delay: int, now: Instant, uniqid: string, format: Instant -> string)
    ensures Settable(PushFields(ttr, delay, now, uniqid), format)
      == [("MessageId", JString(uniqid)), ("TimeToLive", JNumber(ttr)), ("ScheduledEnqueueTimeUtc", JString(format(now + delay)))]
  {
    var f := PushFields(ttr, delay, now, uniqid);
    assert f.messageId == Some(uniqid) && f.timeToLive == Some(ttr) && f.scheduledEnqueueTimeUtc == Some(now + delay);
    var head: seq<Property> := [CorrelationId, SessionId];
    var middle: seq<Property> := [MessageId, Label, ReplyTo, TimeToLive];
    var tail: seq<Property> := [To, ScheduledEnqueueTimeUtc, ReplyToSessionId, PartitionKey];
    assert SettableOrder == head + (middle + tail);
    SettableFromAppend(f, head, middle + tail, format);
    SettableFromAppend(f, middle, tail, format);
    PushEnvelopeHead(f, format);
    PushEnvelopeMiddle(f, format);
    PushEnvelopeTail(f, format);
    assert [("MessageId", JString(uniqid)), ("TimeToLive", JNumber(ttr))] + [("ScheduledEnqueueTimeUtc", JString(format(now + delay)))]
      == [("MessageId", JString(uniqid)), ("TimeToLive", JNumber(ttr)), ("ScheduledEnqueueTimeUtc", JString(format(now + delay)))];
  }

  /** Unset correlation and session ids add no entries. */
  lemma PushEnvelopeHead(f: BrokerFields, format: Instant -> string)
    requires f.correlationId.None? && f.sessionId.None?
    ensures SettableFrom(f, [CorrelationId, SessionId], format) == []
  {
    var t1: seq<Property> := [SessionId];
    assert [CorrelationId, SessionId] == [CorrelationId] + t1;
    SettableFromSkip(f, SessionId, [], format);
    SettableFromSkip(f, CorrelationId, t1, format);
  }

  /** With a message id and a time to live set, and no label or reply-to, those two are the entries. */
  lemma PushEnvelopeMiddle(f: BrokerFields, format: Instant -> string)
    requires f.messageId.Some? && f.labelText.None? && f.replyTo.None? && f.timeToLive.Some?
    ensures SettableFrom(f, [MessageId, Label, ReplyTo, TimeToLive], format)
      == [("MessageId", JString(f.messageId.value)), ("TimeToLive", JNumber(f.timeToLive.value))]
  {
    var t3: seq<Property> := [TimeToLive];
    var t2 := [ReplyTo] + t3;
    var t1 := [Label] + t2;
    assert [MessageId, Label, ReplyTo, TimeToLive] == [MessageId] + t1;
    SettableFromKeep(f, TimeToLive, [], format);
    SettableFromSkip(f, ReplyTo, t3, format);
    SettableFromSkip(f, Label, t2, format);
    SettableFromKeep(f, MessageId, t1, format);
  }

  /** With a schedule set and no recipient, session to reply to or partition key, the schedule is the one entry. */
  lemma PushEnvelopeTail(f: BrokerFields, format: Instant -> string)
    requires f.to.None? && f.scheduledEnqueueTimeUtc.Some? && f.replyToSessionId.None? && f.partitionKey.None?
    ensures SettableFrom(f, [To, ScheduledEnqueueTimeUtc, ReplyToSessionId, PartitionKey], format)
      == [("ScheduledEnqueueTimeUtc", JString(format(f.scheduledEnqueueTimeUtc.value)))]
  {
    var t3: seq<Property> := [PartitionKey];
    var t2 := [ReplyToSessionId] + t3;
    var t1 := [ScheduledEnqueueTimeUtc] + t2;
    assert [To, ScheduledEnqueueTimeUtc, ReplyToSessionId, PartitionKey] == [To] + t1;
    SettableFromSkip(f, PartitionKey, [], format);
    SettableFromSkip(f, ReplyToSessionId, t3, format);
    SettableFromKeep(f, ScheduledEnqueueTimeUtc, t2, format);
    SettableFromSkip(f, To, t1, format);
  }

  /** The pushed request's headers: content type, envelope and priority, and no other. */
  lemma PushHeaders(config: Config, message: string, ttr: int, delay: int, priority: Option<JsonScalar>,
                    now: Instant, uniqid: string, codecs: Codecs)
    ensures var h := PushRequest(config, message, ttr, delay, priority, now, uniqid, codecs).headers;
      && h.Keys == {"content-type", "brokerproperties", Priority}
      && h["content-type"] == PushContentType
      && h["brokerproperties"] == codecs.jsonEncodeFields(Settable(PushFields(ttr, delay, now, uniqid), codecs.dates.format))
      && h[Priority] == codecs.jsonEncodeValue(if priority.None? then JString("low") else priority.value)
  {
  }

  /**
   * `__toString` as written cannot serialise the pushed envelope either: its
   * correlation id was never assigned, so reading it raises an Error. (As
   * written, `new Message` throws on its `properties` entry before this.)
   */
  lemma PushEnvelopeAsWrittenFails(ttr: int, delay: int, now: Instant, uniqid: string, format: Instant -> string)
    ensures SettableAsWritten(PushFields(ttr, delay, now, uniqid), format) == Failure(UninitialisedRead("CorrelationId"))
  {
  }
}

=== FILE: retry.dfy ===
/**
 * `Request`: an HTTP request that is sent again, after an exponentially
 * growing pause, while the response status is not one of the accepted ones and
 * the retry budget lasts. The client's `send()` is a function of the attempt
 * number; `sleep()` is recorded in a log of pauses.
 */
module Retry {
  import opened Wrappers

  /** A response as the retry logic sees it: the status (a string in the HTTP client) and its text form. */
  datatype Reply = Reply(statusCode: string, text: string)

  /** `4 ** $attempts`. */
  function Pow4(n: nat): (r: nat)
    ensures r >= 1
  {
    if n == 0 then 1 else 4 * Pow4(n - 1)
  }

  /** One send judged: the response when its status is accepted, the exception text otherwise. */
  function Judge(sent: Result<Reply, string>, successStatusCodes: seq<string>): (r: Result<Reply, string>)
    ensures r.Success? <==> sent.Success? && sent.value.statusCode in successStatusCodes
    ensures r.Success? ==> r == sent
  {
    match sent
    case Failure(e) => Failure(e)
    case Success(reply) => if reply.statusCode in successStatusCodes then sent else Failure(reply.text)
  }

  /** The result of `sendAndRetryOnFailure` started at attempt `a`, with the pauses it takes. */
  function Outcome(send: nat -> Result<Reply, string>, successStatusCodes: seq<string>, maxRetries: int, a: nat)
    : (Result<Reply, string>, seq<nat>)
    decreases maxRetries - a
  {
    var first := Judge(send(a), successStatusCodes);
    if first.Success? || !(a < maxRetries) then (first, [])
    else
      var rest := Outcome(send, successStatusCodes, maxRetries, a + 1);
      (rest.0, [Pow4(a)] + rest.1)
  }

  /** The attempt counter once the retries starting at `a` are over. */
  function FinalAttempts(send: nat -> Result<Reply, string>, successStatusCodes: seq<string>, maxRetries: int, a: nat)
    : nat
    decreases maxRetries - a
  {
    if Judge(send(a), successStatusCodes).Success? || !(a < maxRetries) then a
    else FinalAttempts(send, successStatusCodes, maxRetries, a + 1)
  }

  /** The pauses `4^a, 4^(a+1), ..., 4^(b-1)`. */
  function Delays(a: nat, b: nat): (r: seq<nat>)
    requires a <= b
    ensures |r| == b - a
    ensures forall i | 0 <= i < |r| :: r[i] == Pow4(a + i)
    decreases b - a
  {
    if a == b then [] else [Pow4(a)] + Delays(a + 1, b)
  }

  class Request {
    var maxRetries: int
    var attempts: nat
    /** The arguments of every `sleep()` so far. */
    var pauses: seq<nat>

    constructor (maxRetries: int)
      ensures this.maxRetries == maxRetries && attempts == 0 && pauses == []
    {
      this.maxRetries := maxRetries;
      attempts := 0;
      pauses := [];
    }

    /** `canContinue($attempts)`. */
    function CanContinue(a: int): bool
      reads this
    {
      a < maxRetries
    }

    /** `getRetryDelay($attempts)`. */
    function GetRetryDelay(a: nat): nat
    {
      Pow4(a)
    }

    /** `sendAndRetryOnFailure($successStatusCodes)`. */
    method SendAndRetryOnFailure(successStatusCodes: seq<string>, send: nat -> Result<Reply, string>)
      returns (r: Result<Reply, string>)
      modifies this
      ensures r == Outcome(send, successStatusCodes, maxRetries, old(attempts)).0
      ensures pauses == old(pauses) + Outcome(send, successStatusCodes, maxRetries, old(attempts)).1
      ensures attempts == FinalAttempts(send, successStatusCodes, maxRetries, old(attempts))
      ensures maxRetries == old(maxRetries)
      decreases maxRetries - attempts
    {
      r := Judge(send(attempts), successStatusCodes);
      if r.Failure? {
        if !CanContinue(attempts) {
          return;
        }
        var delay := GetRetryDelay(attempts);
        pauses := pauses + [delay];
        attempts := attempts + 1;
        ghost var before := pauses;
        r := SendAndRetryOnFailure(successStatusCodes, send);
        assert pauses == before + Outcome(send, successStatusCodes, maxRetries, old(attempts) + 1).1;
      }
    }
  }

  /** A returned response always carries an accepted status, and it is the response of the last attempt. */
  lemma {:induction false} OutcomeAccepted(send: nat -> Result<Reply, string>, successStatusCodes: seq<string>, maxRetries: int, a: nat)
    ensures var out := Outcome(send, successStatusCodes, maxRetries, a);
      var last := FinalAttempts(send, successStatusCodes, maxRetries, a);
      out.0 == Judge(send(last), successStatusCodes)
      && (out.0.Success? ==> out.0.value.statusCode in successStatusCodes && send(last) == out.0)
    decreases maxRetries - a
  {
    if !(Judge(send(a), successStatusCodes).Success? || !(a < maxRetries)) {
      OutcomeAccepted(send, successStatusCodes, maxRetries, a + 1);
    }
  }

  /** One pause per attempt that failed, so the counter ends where the pauses say. */
  lemma {:induction false} PausesPerAttempt(send: nat -> Result<Reply, string>, successStatusCodes: seq<string>, maxRetries: int, a: nat)
    ensures var last := FinalAttempts(send, successStatusCodes, maxRetries, a);
      a <= last && Outcome(send, successStatusCodes, maxRetries, a).1 == Delays(a, last)
    decreases maxRetries - a
  {
    if !(Judge(send(a), successStatusCodes).Success? || !(a < maxRetries)) {
      PausesPerAttempt(send, successStatusCodes, maxRetries, a + 1);
    }
  }

  /** The counter never passes the retry budget (unless it started above it), and stops exactly there when every attempt fails. */
  lemma {:induction false} AttemptsBounded(send: nat -> Result<Reply, string>, successStatusCodes: seq<string>, maxRetries: int, a: nat)
    ensures a <= maxRetries ==> FinalAttempts(send, successStatusCodes, maxRetries, a) <= maxRetries
    ensures a > maxRetries ==> FinalAttempts(send, successStatusCodes, maxRetries, a) == a
    ensures (forall k: nat | a <= k :: Judge(send(k), successStatusCodes).Failure?) && a <= maxRetries ==>
      FinalAttempts(send, successStatusCodes, maxRetries, a) == maxRetries
    decreases maxRetries - a
  {
    if !(Judge(send(a), successStatusCodes).Success? || !(a < maxRetries)) {
      AttemptsBounded(send, successStatusCodes, maxRetries, a + 1);
    }
  }

  /**
   * A request that fails every time from attempt `a` on is sent
   * `maxRetries - a + 1` times, pauses `4^a, ..., 4^(maxRetries-1)` seconds, and
   * ends with the last failure.
   */
  lemma AlwaysFailing(send: nat -> Result<Reply, string>, successStatusCodes: seq<string>, maxRetries: nat, a: nat)
    requires a <= maxRetries
    requires forall k: nat | a <= k :: Judge(send(k), successStatusCodes).Failure?
    ensures Outcome(send, successStatusCodes, maxRetries, a).1 == Delays(a, maxRetries)
    ensures Outcome(send, successStatusCodes, maxRetries, a).0 == Judge(send(maxRetries), successStatusCodes)
  {
    AttemptsBounded(send, successStatusCodes, maxRetries, a);
    PausesPerAttempt(send, successStatusCodes, maxRetries, a);
    OutcomeAccepted(send, successStatusCodes, maxRetries, a);
  }

  /**
   * The first accepted response within the budget ends the retries: it is
   * returned, and only the attempts before it paused.
   */
  lemma {:induction false} FirstSuccessWins(send: nat -> Result<Reply, string>, successStatusCodes: seq<string>, maxRetries: int, a: nat, k: nat)
    requires a <= k && k <= maxRetries
    requires forall j: nat | a <= j < k :: Judge(send(j), successStatusCodes).Failure?
    requires Judge(send(k), successStatusCodes).Success?
    ensures Outcome(send, successStatusCodes, maxRetries, a) == (send(k), Delays(a, k))
    ensures FinalAttempts(send, successStatusCodes, maxRetries, a) == k
    decreases k - a
  {
    if a < k {
      FirstSuccessWins(send, successStatusCodes, maxRetries, a + 1, k);
    }
  }
}

=== FILE: sastoken.dfy ===
/**
 * The shared-access-signature token: its textual format
 * `SharedAccessSignature sig=S&se=E&skn=K&sr=R`, a parser that reads the four
 * fields back, and the standalone token builder `SasTokenGenerator`.
 * HMAC-SHA256 (RFC 2104) and Base64 (section 4 of RFC 4648) are library calls
 * and are passed in as functions.
 */
module SasToken {
  import opened Wrappers
  import opened Text
  import opened Percent

  datatype TokenFields = TokenFields(sig: string, se: string, skn: string, sr: string)

  /** The library primitives the token is built from. */
  datatype Crypto = Crypto(
    hmacSha256: (ByteString, ByteString) -> ByteString,  // raw digest of (data, key)
    base64: ByteString -> ByteString)

  const Prefix: string := "SharedAccessSignature sig="

  /** `sprintf('SharedAccessSignature sig=%s&se=%s&skn=%s&sr=%s', ...)`. */
  function Format(f: TokenFields): string
  {
    Prefix + f.sig + "&se=" + f.se + "&skn=" + f.skn + "&sr=" + f.sr
  }

  predicate StartsWith(s: string, p: string) { |p| <= |s| && s[..|p|] == p }

  /**
   * Reads a token back: `sig` and `se` end at the next `&`, `sr` starts after
   * the last `&`, and `skn` is whatever lies between.
   */
  function Parse(t: string): Option<TokenFields>
  {
    if StartsWith(t, Prefix) then ParseFromSig(t[|Prefix|..]) else None
  }

  function ParseFromSig(s: string): Option<TokenFields>
  {
    match SplitAtFirst(s, '&')
    case None => None
    case Some((sig, rest)) => if StartsWith(rest, "se=") then ParseFromSe(sig, rest[3..]) else None
  }

  function ParseFromSe(sig: string, s: string): Option<TokenFields>
  {
    match SplitAtFirst(s, '&')
    case None => None
    case Some((se, rest)) => if StartsWith(rest, "skn=") then ParseFromSkn(sig, se, rest[4..]) else None
  }

  function ParseFromSkn(sig: string, se: string, s: string): Option<TokenFields>
  {
    match SplitAtLast(s, '&')
    case None => None
    case Some((skn, rest)) => if StartsWith(rest, "sr=") then Some(TokenFields(sig, se, skn, rest[3..])) else None
  }

  /** The fields whose text cannot hide a field separator. */
  predicate Separable(f: TokenFields)
  {
    '&' !in f.sig && '&' !in f.se && '&' !in f.sr
  }

  lemma ParseSkn(f: TokenFields)
    requires '&' !in f.sr
    ensures ParseFromSkn(f.sig, f.se, f.skn + "&sr=" + f.sr) == Some(f)
  {
    var rest := "sr=" + f.sr;
    assert f.skn + "&sr=" + f.sr == f.skn + ['&'] + rest;
    assert '&' !in rest by {
      assert forall i | 3 <= i < |rest| :: rest[i] == f.sr[i - 3];
    }
    SplitAtLastOf(f.skn, rest, '&');
    assert rest[..3] == "sr=" && rest[3..] == f.sr;
  }

  lemma ParseSe(f: TokenFields)
    requires '&' !in f.se && '&' !in f.sr
    ensures ParseFromSe(f.sig, f.se + "&skn=" + f.skn + "&sr=" + f.sr) == Some(f)
  {
    var inner := f.skn + "&sr=" + f.sr;
    var rest := "skn=" + inner;
    assert f.se + "&skn=" + f.skn + "&sr=" + f.sr == f.se + ['&'] + rest;
    SplitAtFirstOf(f.se, rest, '&');
    assert rest[..4] == "skn=" && rest[4..] == inner;
    ParseSkn(f);
  }

  lemma ParseSig(f: TokenFields)
    requires Separable(f)
    ensures ParseFromSig(f.sig + "&se=" + f.se + "&skn=" + f.skn + "&sr=" + f.sr) == Some(f)
  {
    var inner := f.se + "&skn=" + f.skn + "&sr=" + f.sr;
    var rest := "se=" + inner;
    assert f.sig + "&se=" + f.se + "&skn=" + f.skn + "&sr=" + f.sr == f.sig + ['&'] + rest;
    SplitAtFirstOf(f.sig, rest, '&');
    assert rest[..3] == "se=" && rest[3..] == inner;
    ParseSe(f);
  }

  /** A formatted token parses back into its fields (the key name may hold anything). */
  lemma ParseFormat(f: TokenFields)
    requires Separable(f)
    ensures Parse(Format(f)) == Some(f)
  {
    var body := f.sig + "&se=" + f.se + "&skn=" + f.skn + "&sr=" + f.sr;
    assert Format(f) == Prefix + body;
    assert Format(f)[..|Prefix|] == Prefix && Format(f)[|Prefix|..] == body;
    ParseSig(f);
  }

  /** An encoding never contains `&`. */
  lemma NoSeparatorInEncoding(style: Style, s: ByteString, upper: bool)
    ensures '&' !in EncodeWith(style, s, upper)
  {
    var r := EncodeWith(style, s, upper);
    forall i | 0 <= i < |r| ensures r[i] != '&' {
      assert InEncodedAlphabet(r[i]);
    }
  }

  lemma NoSeparatorInDecimal(n: int)
    ensures '&' !in DecimalString(n)
  {
    var r := DecimalString(n);
    forall i | 0 <= i < |r| ensures r[i] != '&' {
      assert IsDigit(r[i]) || r[i] == '-';
    }
  }

  /** The string that is signed: the encoded resource, a newline, the expiry instant. */
  function StringToSign(resource: ByteString, expiry: int): (r: ByteString)
  {
    var d := DecimalString(expiry);
    assert IsByteString(d) by {
      forall i | 0 <= i < |d| ensures d[i] as int < 256 {
        assert IsDigit(d[i]) || d[i] == '-';
      }
    }
    resource + "\n" + d
  }

  /** The constructor arguments of a `SasTokenGenerator` (a readonly class). */
  datatype Generator = Generator(endpoint: ByteString, accessKeyName: string, accessKey: ByteString, tokenExpiry: int)

  /** `strtolower(rawurlencode(strtolower(endpoint)))`. */
  function Resource(endpoint: ByteString): ByteString
  {
    var lowered: ByteString := Lower(endpoint);
    ResourceIsLowerEncoding(lowered);
    Lower(RawUrlEncode(lowered))
  }

  /** The resource holds no field separator. */
  lemma ResourceNoSeparator(endpoint: ByteString)
    ensures '&' !in Resource(endpoint)
  {
    ResourceIsLowerEncoding(Lower(endpoint));
    NoSeparatorInEncoding(Raw, Lower(endpoint), false);
  }

  /**
   * The resource is the raw encoding of the lower-cased endpoint with
   * lower-case hex digits: it holds no upper-case letter, and it decodes back
   * to the lower-cased endpoint.
   */
  lemma ResourceMeaning(endpoint: ByteString)
    ensures Resource(endpoint) == EncodeWith(Raw, Lower(endpoint), false)
    ensures NoUpper(Resource(endpoint))
    ensures PercentDecode(Raw, Resource(endpoint)) == Lower(endpoint)
  {
    ResourceIsLowerEncoding(Lower(endpoint));
    DecodeEncode(Raw, Lower(endpoint), false);
  }

  lemma ResourceIsLowerEncoding(lowered: ByteString)
    requires NoUpper(lowered)
    ensures Lower(RawUrlEncode(lowered)) == EncodeWith(Raw, lowered, false)
  {
    LowerOfRawEncoding(lowered);
  }

  /** One raw-encoded octet that is not an upper-case letter, lower-cased. */
  lemma LowerOfRawOctet(c: char)
    requires c as int < 256 && !IsUpper(c)
    ensures Lower(EncodeOctet(Raw, c, true)) == EncodeOctet(Raw, c, false)
  {
    if !Unreserved(Raw, c) {
      var b := c as int;
      assert LowerChar(HexDigit(b / 16, true)) == HexDigit(b / 16, false);
      assert LowerChar(HexDigit(b % 16, true)) == HexDigit(b % 16, false);
      assert LowerChar('%') == '%';
    }
  }

  /**
   * Lower-casing a whole raw encoding of a string without upper-case letters
   * only lower-cases its hex digits.
   */
  lemma {:induction false} LowerOfRawEncoding(s: ByteString)
    requires NoUpper(s)
    ensures Lower(EncodeWith(Raw, s, true)) == EncodeWith(Raw, s, false)
  {
    if s != [] {
      LowerOfRawEncoding(s[1..]);
      LowerAppend(EncodeOctet(Raw, s[0], true), EncodeWith(Raw, s[1..], true));
      LowerOfRawOctet(s[0]);
    }
  }

  lemma LowerAppend(a: string, b: string)
    ensures Lower(a + b) == Lower(a) + Lower(b)
  {
    assert forall i | 0 <= i < |a + b| :: Lower(a + b)[i] == (Lower(a) + Lower(b))[i];
  }

  /**
   * The four fields `generateSharedAccessSignatureToken()` formats: the
   * raw-encoded Base64 HMAC of the string to sign, the expiry, the key name and
   * the resource.
   */
  function SasFields(g: Generator, now: int, crypto: Crypto): TokenFields
  {
    var expiry := now + g.tokenExpiry;
    var resource := Resource(g.endpoint);
    var toSign := StringToSign(resource, expiry);
    var digest := crypto.base64(crypto.hmacSha256(toSign, g.accessKey));
    TokenFields(RawUrlEncode(digest), DecimalString(expiry), g.accessKeyName, resource)
  }

  /** `generateSharedAccessSignatureToken()` for a clock reading `now`. */
  function GenerateSharedAccessSignatureToken(g: Generator, now: int, crypto: Crypto): string
  {
    Format(SasFields(g, now, crypto))
  }

  /** The generated token reads back as exactly the four fields it was formatted from. */
  lemma GeneratedTokenReadsBack(g: Generator, now: int, crypto: Crypto)
    ensures Parse(GenerateSharedAccessSignatureToken(g, now, crypto)) == Some(SasFields(g, now, crypto))
  {
    SasFieldsSeparable(g, now, crypto);
    ParseFormat(SasFields(g, now, crypto));
  }

  /** No generated field that the parser splits on holds a separator. */
  lemma SasFieldsSeparable(g: Generator, now: int, crypto: Crypto)
    ensures Separable(SasFields(g, now, crypto))
  {
    var resource := Resource(g.endpoint);
    var digest := crypto.base64(crypto.hmacSha256(StringToSign(resource, now + g.tokenExpiry), g.accessKey));
    NoSeparatorInEncoding(Raw, digest, true);
    NoSeparatorInDecimal(now + g.tokenExpiry);
    ResourceNoSeparator(g.endpoint);
  }

  /**
   * What the fields say: the signature percent-decodes to the Base64 HMAC of
   * the string to sign, which is the resource, a newline and the expiry; the
   * expiry reads as `now + tokenExpiry`; the key name is the generator's; the
   * resource decodes to the lower-cased endpoint.
   */
  lemma SasFieldsMeaning(g: Generator, now: int, crypto: Crypto)
    ensures var f := SasFields(g, now, crypto);
      && f.sr == Resource(g.endpoint)
      && PercentDecode(Raw, f.sr) == Lower(g.endpoint)
      && PercentDecode(Raw, f.sig) == crypto.base64(crypto.hmacSha256(StringToSign(f.sr, now + g.tokenExpiry), g.accessKey))
      && ParseInt(f.se) == Some(now + g.tokenExpiry)
      && f.skn == g.accessKeyName
  {
    var f := SasFields(g, now, crypto);
    var resource := Resource(g.endpoint);
    var digest := crypto.base64(crypto.hmacSha256(StringToSign(resource, now + g.tokenExpiry), g.accessKey));
    assert f.sr == resource && f.sig == RawUrlEncode(digest) && f.se == DecimalString(now + g.tokenExpiry);
    ResourceMeaning(g.endpoint);
    DecodeEncode(Raw, digest, true);
    ParseDecimalString(now + g.tokenExpiry);
  }

  /** The token's `se` field reads back as the expiry instant `now + tokenExpiry`. */
  lemma TokenExpiry(g: Generator, now: int, crypto: Crypto)
    ensures var token := Parse(GenerateSharedAccessSignatureToken(g, now, crypto));
      token.Some? && ParseInt(token.value.se) == Some(now + g.tokenExpiry)
  {
    GeneratedTokenReadsBack(g, now, crypto);
    SasFieldsMeaning(g, now, crypto);
  }

}

=== FILE: servicebus.dfy ===
/**
 * The wire half of `ServiceBus`: how a receive response becomes a `Message`,
 * which request headers a send builds from one, and the request a delete
 * issues. The HTTP transport, `json_encode`, `json_decode` and `parse_url` are
 * passed in as functions.
 */
module ServiceBus {
  import opened Wrappers
  import opened Text
  import opened Broker
  import opened Messages
  import opened ServiceBusAuth
  import opened SasToken

  const PeekLock: string := "POST"

  const ReceiveAndDelete: string := "DELETE"

  /** A request as the HTTP client sends it. */
  datatype HttpRequest = HttpRequest(
    verb: string,
    path: string,
    timeout: Option<int>,
    headers: map<string, string>,
    body: Option<string>)

  /** A response: status, header collection (names lower-cased, one list of values each), content. */
  datatype HttpResponse = HttpResponse(status: int, headers: map<string, seq<string>>, content: string)

  /** `send()`: a response, or the client's exception. */
  type Transport = HttpRequest -> Result<HttpResponse, string>

  datatype Error =
    | TransportFailure(reason: string)
    | UnexpectedStatus(status: int)
    | MissingDate     // `date` is a non-nullable string property of `Message`
    | UnknownMethod(name: string)  // `__call` of a method the object does not have

  /** The library functions the wire mapping calls. */
  datatype Codecs = Codecs(
    jsonDecode: string -> Option<seq<(string, JsonScalar)>>,  // None: JsonException
    jsonEncodeFields: seq<(string, JsonScalar)> -> string,
    jsonEncodeValue: JsonScalar -> string,
    dates: DateCodec)

  /** The header names the yii header collection hands over are lower-case. */
  ghost predicate LowerCaseHeaders(t: Transport)
  {
    forall q :: Delivered(t, q) ==> LowerKeys(t(q).value.headers)
  }

  predicate Delivered(t: Transport, q: HttpRequest) { t(q).Success? }

  /**
   * `authorizationHeaderHandler`, run before every send: the request gains an
   * `authorization` token signed for its full URL (`getFullUrl()`, computed by
   * the HTTP client and passed in); nothing else about it changes.
   */
  function AuthorizationHeaderHandler(config: Config, request: HttpRequest, fullUrl: ByteString, now: int, crypto: Crypto)
    : (r: HttpRequest)
    ensures r.verb == request.verb && r.path == request.path && r.timeout == request.timeout && r.body == request.body
    ensures "authorization" in r.headers && r.headers["authorization"] == GenerateAuthorizationToken(config, fullUrl, now, crypto)
    ensures r.headers - {"authorization"} == request.headers - {"authorization"}
  {
    request.(headers := request.headers["authorization" := GenerateAuthorizationToken(config, fullUrl, now, crypto)])
  }

  // ---------------------------------------------------------------- receive

  /** The request `receiveMessage($peekMethod, $timeout)` sends. */
  function ReceiveRequest(config: Config, peekMethod: string, timeout: Option<int>): HttpRequest
  {
    HttpRequest(peekMethod, config.queue + "/messages/head", timeout, map["content-length" := "0"], None)
  }

  /** The first value of every header that has one. */
  function FirstValues(h: map<string, seq<string>>): (r: map<string, string>)
    ensures forall k | k in r :: k in h && |h[k]| > 0 && r[k] == h[k][0]
    ensures forall k | k in h && |h[k]| > 0 :: k in r
  {
    map k | k in h && |h[k]| > 0 :: h[k][0]
  }

  const FixedHeaders: set<string> := {"content-type", "date", "location", "brokerproperties"}

  /** The headers that become custom properties: every kept header but the four fixed ones. */
  function CustomHeaders(h: map<string, seq<string>>): (r: map<string, JsonScalar>)
    ensures forall k | k in r :: k !in FixedHeaders && k in FirstValues(h) && r[k] == JString(FirstValues(h)[k])
    ensures forall k | k in FirstValues(h) && k !in FixedHeaders :: k in r
  {
    var rest := FirstValues(h) - FixedHeaders;
    map k | k in rest :: JString(rest[k])
  }

  function Get(m: map<string, string>, k: string): Option<string>
  {
    if k in m then Some(m[k]) else None
  }

  /** PHP truthiness of a string: everything but "" and "0". */
  predicate Truthy(s: string) { s != "" && s != "0" }

  /** The decoded envelope of a response, keys with their first letter lower-cased. */
  function DecodedEnvelope(h: map<string, seq<string>>, jsonDecode: string -> Option<seq<(string, JsonScalar)>>)
    : Option<seq<(string, JsonScalar)>>
  {
    DecodeEnvelopeHeader(Get(FirstValues(h), "brokerproperties"), jsonDecode)
  }

  function LcFirstKeys(entries: seq<(string, JsonScalar)>): (r: seq<(string, JsonScalar)>)
    ensures |r| == |entries|
    ensures forall i | 0 <= i < |r| :: r[i] == (LcFirst(entries[i].0), entries[i].1)
  {
    if entries == [] then [] else [(LcFirst(entries[0].0), entries[0].1)] + LcFirstKeys(entries[1..])
  }

  // ---------------------------------------------------------------- array_flip, as written

  /** A PHP array key: a string that is the canonical decimal form of an integer is stored as that integer. */
  datatype ArrayKey = IntKey(i: int) | StrKey(s: string)

  predicate CanonicalDecimal(s: string) { ParseInt(s).Some? && DecimalString(ParseInt(s).value) == s }

  function KeyOf(v: JsonScalar): ArrayKey
  {
    match v
    case JNumber(n) => IntKey(n)
    case JString(s) => if CanonicalDecimal(s) then IntKey(ParseInt(s).value) else StrKey(s)
  }

  /** The value an array key becomes when `array_flip` turns it back into a value. */
  function ValueOfKey(k: ArrayKey): JsonScalar
  {
    match k
    case IntKey(i) => JNumber(i)
    case StrKey(s) => JString(s)
  }

  /** `$a[$k] = $v` on an ordered array: an existing key keeps its place and takes the new value. */
  function Put<K(==), V>(al: seq<(K, V)>, k: K, v: V): (r: seq<(K, V)>)
    ensures |r| == |al| || r == al + [(k, v)]
  {
    if al == [] then [(k, v)]
    else if al[0].0 == k then [(k, v)] + al[1..]
    else [al[0]] + Put(al[1..], k, v)
  }

  /** `array_flip`: every value becomes a key naming its key; of equal values the last one wins. */
  function Flip<K, V(==)>(al: seq<(K, V)>): seq<(V, K)>
    decreases |al|
  {
    if al == [] then []
    else
      var last := al[|al| - 1];
      Put(Flip(al[..|al| - 1]), last.1, last.0)
  }

  function MapValues<K>(al: seq<(K, string)>, f: string -> string): (r: seq<(K, string)>)
    ensures |r| == |al| && forall i | 0 <= i < |r| :: r[i] == (al[i].0, f(al[i].1))
  {
    if al == [] then [] else [(al[0].0, f(al[0].1))] + MapValues(al[1..], f)
  }

  function AsKeys(entries: seq<(string, JsonScalar)>): (r: seq<(string, ArrayKey)>)
    ensures |r| == |entries| && forall i | 0 <= i < |r| :: r[i] == (entries[i].0, KeyOf(entries[i].1))
  {
    if entries == [] then [] else [(entries[0].0, KeyOf(entries[0].1))] + AsKeys(entries[1..])
  }

  function AsValues(al: seq<(string, ArrayKey)>): (r: seq<(string, JsonScalar)>)
    ensures |r| == |al| && forall i | 0 <= i < |r| :: r[i] == (al[i].0, ValueOfKey(al[i].1))
  {
    if al == [] then [] else [(al[0].0, ValueOfKey(al[0].1))] + AsValues(al[1..])
  }

  /**
   * `array_flip(array_map('lcfirst', array_flip($decoded)))` as written: values
   * become keys and back, so two properties with equal values (after PHP's
   * integer-key normalisation) keep only the later name.
   */
  function FlipLcFirstAsWritten(entries: seq<(string, JsonScalar)>): seq<(string, JsonScalar)>
  {
    AsValues(Flip(MapValues(Flip(AsKeys(entries)), LcFirst)))
  }

  predicate DistinctValues<K, V(==)>(al: seq<(K, V)>)
  {
    forall i, j | 0 <= i < j < |al| :: al[i].1 != al[j].1
  }

  function Swap<K, V>(al: seq<(K, V)>): (r: seq<(V, K)>)
    ensures |r| == |al| && forall i | 0 <= i < |r| :: r[i] == (al[i].1, al[i].0)
  {
    if al == [] then [] else [(al[0].1, al[0].0)] + Swap(al[1..])
  }

  lemma {:induction false} PutAbsent<K, V>(al: seq<(K, V)>, k: K, v: V)
    requires forall i | 0 <= i < |al| :: al[i].0 != k
    ensures Put(al, k, v) == al + [(k, v)]
  {
    if al != [] {
      PutAbsent(al[1..], k, v);
      assert [al[0]] + (al[1..] + [(k, v)]) == al + [(k, v)];
    }
  }

  /** With pairwise distinct values `array_flip` only swaps every pair. */
  lemma {:induction false} FlipDistinct<K, V>(al: seq<(K, V)>)
    requires DistinctValues(al)
    ensures Flip(al) == Swap(al)
    decreases |al|
  {
    if al != [] {
      var n := |al| - 1;
      var prefix := al[..n];
      forall i, j | 0 <= i < j < |prefix| ensures prefix[i].1 != prefix[j].1 {
        assert prefix[i] == al[i] && prefix[j] == al[j];
      }
      FlipDistinct(prefix);
      var swapped := Swap(prefix);
      forall i | 0 <= i < |swapped| ensures swapped[i].0 != al[n].1 {
        assert swapped[i].0 == al[i].1;
      }
      PutAbsent(swapped, al[n].1, al[n].0);
      SwapLast(al);
    }
  }

  lemma SwapLast<K, V>(al: seq<(K, V)>)
    requires al != []
    ensures Swap(al) == Swap(al[..|al| - 1]) + [(al[|al| - 1].1, al[|al| - 1].0)]
  {
    var n := |al| - 1;
    var lhs := Swap(al);
    var rhs := Swap(al[..n]) + [(al[n].1, al[n].0)];
    assert |lhs| == |rhs|;
    forall i | 0 <= i < |lhs| ensures lhs[i] == rhs[i] {
      if i < n {
        assert al[..n][i] == al[i];
      }
    }
  }

  /**
   * When no two values share an array key, no two names share their
   * lower-cased-first-letter form and no string value looks like an integer,
   * the flip round trip is exactly the intended renaming of the keys.
   */
  lemma FlipLcFirstWithoutCollision(entries: seq<(string, JsonScalar)>)
    requires forall i, j | 0 <= i < j < |entries| :: KeyOf(entries[i].1) != KeyOf(entries[j].1)
    requires forall i, j | 0 <= i < j < |entries| :: LcFirst(entries[i].0) != LcFirst(entries[j].0)
    requires forall i | 0 <= i < |entries| :: entries[i].1.JString? ==> !CanonicalDecimal(entries[i].1.s)
    ensures FlipLcFirstAsWritten(entries) == LcFirstKeys(entries)
  {
    var keyed := AsKeys(entries);
    DistinctKeysOf(entries);
    FlipDistinct(keyed);
    var renamed := MapValues(Swap(keyed), LcFirst);
    DistinctNamesOf(entries, renamed);
    FlipDistinct(renamed);
    KeysRoundTrip(entries);
    SwapBack(entries, keyed);
  }

  /**
   * When every array key reads back as the value it was made from, the two
   * swaps and the renaming only rename the keys.
   */
  lemma SwapBack(entries: seq<(string, JsonScalar)>, keyed: seq<(string, ArrayKey)>)
    requires KeysReadBack(entries, keyed)
    ensures AsValues(Swap(MapValues(Swap(keyed), LcFirst))) == LcFirstKeys(entries)
  {
    SwapRename(keyed, LcFirst);
    var r := AsValues(Swap(MapValues(Swap(keyed), LcFirst)));
    var want := LcFirstKeys(entries);
    assert forall i | 0 <= i < |entries| :: r[i] == want[i];
  }

  /** `keyed` holds the names of `entries`, with array keys that turn back into their values. */
  predicate KeysReadBack(entries: seq<(string, JsonScalar)>, keyed: seq<(string, ArrayKey)>)
  {
    |keyed| == |entries| && forall i | 0 <= i < |entries| :: keyed[i].0 == entries[i].0 && ValueOfKey(keyed[i].1) == entries[i].1
  }

  /** Values that are not integer-like strings come back unchanged from their array keys. */
  lemma KeysRoundTrip(entries: seq<(string, JsonScalar)>)
    requires forall i | 0 <= i < |entries| :: entries[i].1.JString? ==> !CanonicalDecimal(entries[i].1.s)
    ensures KeysReadBack(entries, AsKeys(entries))
  {
    var keyed := AsKeys(entries);
    forall i | 0 <= i < |entries| ensures keyed[i].0 == entries[i].0 && ValueOfKey(keyed[i].1) == entries[i].1 {
      KeyRoundTrip(entries[i].1);
    }
  }

  /** Swapping, renaming the values and swapping back renames the keys and turns the array keys back into values. */
  lemma SwapRename(al: seq<(string, ArrayKey)>, f: string -> string)
    ensures var r := AsValues(Swap(MapValues(Swap(al), f)));
      |r| == |al| && forall i | 0 <= i < |al| :: r[i] == (f(al[i].0), ValueOfKey(al[i].1))
  {
    var swapped := Swap(al);
    var renamed := MapValues(swapped, f);
    var back := Swap(renamed);
    forall i | 0 <= i < |al| ensures AsValues(back)[i] == (f(al[i].0), ValueOfKey(al[i].1)) {
      assert swapped[i] == (al[i].1, al[i].0);
      assert renamed[i] == (al[i].1, f(al[i].0));
      assert back[i] == (f(al[i].0), al[i].1);
    }
  }

  lemma DistinctKeysOf(entries: seq<(string, JsonScalar)>)
    requires forall i, j | 0 <= i < j < |entries| :: KeyOf(entries[i].1) != KeyOf(entries[j].1)
    ensures DistinctValues(AsKeys(entries))
  {
    var keyed := AsKeys(entries);
    forall i, j | 0 <= i < j < |keyed| ensures keyed[i].1 != keyed[j].1 {
      assert keyed[i].1 == KeyOf(entries[i].1) && keyed[j].1 == KeyOf(entries[j].1);
    }
  }

  lemma DistinctNamesOf(entries: seq<(string, JsonScalar)>, renamed: seq<(ArrayKey, string)>)
    requires forall i, j | 0 <= i < j < |entries| :: LcFirst(entries[i].0) != LcFirst(entries[j].0)
    requires renamed == MapValues(Swap(AsKeys(entries)), LcFirst)
    ensures DistinctValues(renamed)
  {
    forall i, j | 0 <= i < j < |renamed| ensures renamed[i].1 != renamed[j].1 {
      assert renamed[i].1 == LcFirst(entries[i].0) && renamed[j].1 == LcFirst(entries[j].0);
    }
  }

  lemma KeyRoundTrip(v: JsonScalar)
    requires v.JString? ==> !CanonicalDecimal(v.s)
    ensures ValueOfKey(KeyOf(v)) == v
  {
  }

  const FirstDelivery: seq<(string, JsonScalar)> := [("DeliveryCount", JNumber(1)), ("SequenceNumber", JNumber(1))]

  lemma FirstDeliveryFlipped()
    ensures FlipLcFirstAsWritten(FirstDelivery) == [("sequenceNumber", JNumber(1))]
  {
    FlipKeepsLaterName("DeliveryCount", "SequenceNumber", JNumber(1), JNumber(1));
    LcFirstSequenceNumber();
  }

  /** Of two entries whose values become the same array key, the flip as written keeps only the later name. */
  lemma FlipKeepsLaterName(a: string, b: string, v: JsonScalar, w: JsonScalar)
    requires KeyOf(v) == KeyOf(w)
    ensures FlipLcFirstAsWritten([(a, v), (b, w)]) == [(LcFirst(b), ValueOfKey(KeyOf(w)))]
  {
    var keyed := AsKeys([(a, v), (b, w)]);
    assert keyed == [(a, KeyOf(w)), (b, KeyOf(w))];
    FlipEqualPair(a, b, KeyOf(w));
    var renamed := MapValues(Flip(keyed), LcFirst);
    assert renamed == [(KeyOf(w), LcFirst(b))];
    FlipSingle(KeyOf(w), LcFirst(b));
  }

  /** Of two keys with the same value, `array_flip` keeps the later one. */
  lemma FlipEqualPair<K, V>(a: K, b: K, v: V)
    ensures Flip([(a, v), (b, v)]) == [(v, b)]
  {
    var al := [(a, v), (b, v)];
    assert al[..1] == [(a, v)];
    FlipSingle(a, v);
    assert Put([(v, a)], v, b) == [(v, b)];
  }

  lemma FlipSingle<K, V>(k: K, v: V)
    ensures Flip([(k, v)]) == [(v, k)]
  {
    assert [(k, v)][..0] == [];
  }

  lemma FirstDeliveryRenamed()
    ensures LcFirstKeys(FirstDelivery) == [("deliveryCount", JNumber(1)), ("sequenceNumber", JNumber(1))]
  {
    LcFirstDeliveryCount();
    LcFirstSequenceNumber();
    LcFirstKeysPair("DeliveryCount", "SequenceNumber", JNumber(1), JNumber(1));
  }

  lemma LcFirstKeysPair(a: string, b: string, v: JsonScalar, w: JsonScalar)
    ensures LcFirstKeys([(a, v), (b, w)]) == [(LcFirst(a), v), (LcFirst(b), w)]
  {
  }

  lemma LcFirstDeliveryCount()
    ensures LcFirst("DeliveryCount") == "deliveryCount"
  {
    var s, t := "DeliveryCount", "deliveryCount";
    assert s[0] == 'D' && t[0] == 'd' && s[1..] == t[1..];
    assert t == [t[0]] + t[1..];
  }

  lemma LcFirstSequenceNumber()
    ensures LcFirst("SequenceNumber") == "sequenceNumber"
  {
    var s, t := "SequenceNumber", "sequenceNumber";
    assert s[0] == 'S' && t[0] == 's' && s[1..] == t[1..];
    assert t == [t[0]] + t[1..];
  }

  /**
   * A delivery count followed by any property whose value is the same integer
   * (the sequence number of a queue's first message, for one): as written only
   * the later name survives and the delivery count is lost, where the intended
   * renaming keeps it.
   */
  lemma FlipCollapsesEqualValues(b: string, n: int, w: JsonScalar, parse: string -> Option<Instant>)
    requires KeyOf(w) == IntKey(n) && LcFirst(b) != "deliveryCount"
    ensures FlipLcFirstAsWritten([("DeliveryCount", JNumber(n)), (b, w)]) == [(LcFirst(b), JNumber(n))]
    ensures AssignAll(Unset, FlipLcFirstAsWritten([("DeliveryCount", JNumber(n)), (b, w)]), parse).deliveryCount == None
    ensures AssignAll(Unset, LcFirstKeys([("DeliveryCount", JNumber(n)), (b, w)]), parse).deliveryCount == Some(n)
  {
    FlipKeepsLaterName("DeliveryCount", b, JNumber(n), w);
    var flipped := [(LcFirst(b), JNumber(n))];
    assert flipped[..0] == [];
    AssignOtherKeepsCount(Unset, LcFirst(b), JNumber(n), parse);
    LcFirstDeliveryCount();
    LcFirstKeysPair("DeliveryCount", b, JNumber(n), w);
    var renamed := [("deliveryCount", JNumber(n)), (LcFirst(b), w)];
    assert renamed[..1] == [("deliveryCount", JNumber(n))] && renamed[..1][..0] == [];
    DeliveryCountAttribute();
    AssignOtherKeepsCount(Assign(Unset, "deliveryCount", JNumber(n), parse), LcFirst(b), w, parse);
  }

  /** How the status of a receive is read. */
  datatype ReceiveKind = Empty | Hit | Rejected

  function ClassifyReceive(status: int): (k: ReceiveKind)
    ensures k == Empty <==> status == 204
    ensures k == Hit <==> status == 200 || status == 201
  {
    if status == 204 then Empty
    else if status == 200 || status == 201 then Hit
    else Rejected
  }

  /**
   * `receiveMessage($peekMethod, $timeout)`: null on 204, a `Message` on 200 or
   * 201, an exception otherwise. A hit keeps the first value of each header,
   * takes content type, date and location into their own fields, decodes the
   * envelope (leaving it null on invalid JSON) and turns every other header into
   * a custom property.
   */
  method ReceiveMessage(config: Config, peekMethod: string, timeout: Option<int>, transport: Transport,
                        codecs: Codecs, uniqid: string)
    returns (r: Result<Message?, Error>)
    requires LowerCaseHeaders(transport)
    ensures var q := ReceiveRequest(config, peekMethod, timeout);
      match transport(q)
      case Failure(e) => r == Failure(TransportFailure(e))
      case Success(resp) =>
        match ClassifyReceive(resp.status)
        case Empty => r == Success(null)
        case Rejected => r == Failure(UnexpectedStatus(resp.status))
        case Hit =>
          if "date" !in FirstValues(resp.headers) then r == Failure(MissingDate)
          else r.Success? && r.value != null && fresh(r.value) && Received(r.value, resp, codecs, uniqid)
  {
    var request := ReceiveRequest(config, peekMethod, timeout);
    var sent := transport(request);
    if sent.Failure? {
      return Failure(TransportFailure(sent.error));
    }
    var response := sent.value;
    assert Delivered(transport, request);
    if response.status == 204 {
      return Success(null);
    } else if response.status == 200 || response.status == 201 {
      var headers := KeepFirstValues(response.headers);
      if "date" !in headers {
        return Failure(MissingDate);
      }
      var message := BuildMessage(response, headers, codecs, uniqid);
      return Success(message);
    } else {
      return Failure(UnexpectedStatus(response.status));
    }
  }

  // ---------------------------------------------------------------- receive, as written

  /**
   * The envelope step of a hit as written: invalid JSON is caught and logged,
   * but valid JSON reaches `setAttributes`, which `BrokerProperties` (a
   * `BaseObject`) does not have; the `UnknownMethodException` of `__call`
   * escapes the `catch (\JsonException)`.
   */
  function EnvelopeAsWritten(raw: Option<string>, jsonDecode: string -> Option<seq<(string, JsonScalar)>>)
    : Result<(), Error>
  {
    if raw.Some? && Truthy(raw.value) then
      match jsonDecode(raw.value)
      case None => Success(())
      case Some(_) => Failure(UnknownMethod("setAttributes"))
    else Success(())
  }

  /**
   * `receiveMessage` as written, given what `send()` returned: no message, a
   * message built from the response, or the exception it throws.
   */
  function ReceiveAsWritten(sent: Result<HttpResponse, string>, jsonDecode: string -> Option<seq<(string, JsonScalar)>>)
    : Result<Option<HttpResponse>, Error>
  {
    match sent
    case Failure(e) => Failure(TransportFailure(e))
    case Success(resp) =>
      match ClassifyReceive(resp.status)
      case Empty => Success(None)
      case Rejected => Failure(UnexpectedStatus(resp.status))
      case Hit =>
        var kept := FirstValues(resp.headers);
        if "date" !in kept then Failure(MissingDate)
        else
          match EnvelopeAsWritten(Get(kept, "brokerproperties"), jsonDecode)
          case Failure(e) => Failure(e)
          case Success(_) => Success(Some(resp))
  }

  /**
   * As written, a hit fails exactly when it carries an envelope that decodes,
   * which is exactly when the corrected receive attaches one; so a message is
   * only ever returned without an envelope.
   */
  lemma ReceiveAsWrittenFails(sent: Result<HttpResponse, string>, jsonDecode: string -> Option<seq<(string, JsonScalar)>>)
    ensures ReceiveAsWritten(sent, jsonDecode) == Failure(UnknownMethod("setAttributes")) <==>
      && sent.Success? && ClassifyReceive(sent.value.status) == Hit
      && "date" in FirstValues(sent.value.headers)
      && DecodedEnvelope(sent.value.headers, jsonDecode).Some?
    ensures ReceiveAsWritten(sent, jsonDecode).Success? && ReceiveAsWritten(sent, jsonDecode).value.Some? ==>
      DecodedEnvelope(ReceiveAsWritten(sent, jsonDecode).value.value.headers, jsonDecode).None?
  {
  }

  /** The message a hit with a `date` header becomes. */
  ghost predicate Received(m: Message, resp: HttpResponse, codecs: Codecs, uniqid: string)
    reads m, m.brokerProperties
  {
    var kept := FirstValues(resp.headers);
    && "date" in kept
    && m.Valid()
    && m.body == Some(resp.content)
    && m.contentType == Get(kept, "content-type")
    && m.date == Some(kept["date"])
    && m.location == Get(kept, "location")
    && m.customProperties == CustomHeaders(resp.headers)
    && (m.brokerProperties == null <==> DecodedEnvelope(resp.headers, codecs.jsonDecode).None?)
    && (m.brokerProperties != null ==>
          m.brokerProperties.Fields()
          == AssignAll(WithDefaultMessageId(Unset, uniqid),
                       DecodedEnvelope(resp.headers, codecs.jsonDecode).value, codecs.dates.parse))
  }

  /** `new Message([...])` from a hit, the envelope decoded, the other headers as custom properties. */
  method BuildMessage(response: HttpResponse, headers: map<string, string>, codecs: Codecs, uniqid: string)
    returns (message: Message)
    requires headers == FirstValues(response.headers) && "date" in headers
    requires LowerKeys(headers)
    ensures fresh(message) && (message.brokerProperties != null ==> fresh(message.brokerProperties))
    ensures Received(message, response, codecs, uniqid)
  {
    message := new Message(Some(response.content), Get(headers, "content-type"), Some(headers["date"]), Get(headers, "location"));
    AttachEnvelope(message, Get(headers, "brokerproperties"), codecs, uniqid);
    assert DecodedEnvelope(response.headers, codecs.jsonDecode) == DecodeEnvelopeHeader(Get(headers, "brokerproperties"), codecs.jsonDecode);
    var rest := headers - FixedHeaders;
    assert LowerKeys(rest);
    CopyCustomHeaders(message, rest);
  }

  /** The envelope header decoded: None when absent, falsy or not valid JSON. */
  function DecodeEnvelopeHeader(raw: Option<string>, jsonDecode: string -> Option<seq<(string, JsonScalar)>>)
    : Option<seq<(string, JsonScalar)>>
  {
    if raw.Some? && Truthy(raw.value) then
      match jsonDecode(raw.value)
      case None => None
      case Some(entries) => Some(LcFirstKeys(entries))
    else None
  }

  /** `if ($headerBrokerProperties) { ... }`: a fresh `BrokerProperties` filled from the decoded envelope. */
  method AttachEnvelope(message: Message, raw: Option<string>, codecs: Codecs, uniqid: string)
    requires message.brokerProperties == null
    modifies message
    ensures message.body == old(message.body) && message.contentType == old(message.contentType)
    ensures message.date == old(message.date) && message.location == old(message.location)
    ensures message.customProperties == old(message.customProperties)
    ensures message.brokerProperties == null <==> DecodeEnvelopeHeader(raw, codecs.jsonDecode).None?
    ensures message.brokerProperties != null ==>
      fresh(message.brokerProperties)
      && message.brokerProperties.Fields()
         == AssignAll(WithDefaultMessageId(Unset, uniqid), DecodeEnvelopeHeader(raw, codecs.jsonDecode).value, codecs.dates.parse)
  {
    if raw.Some? && Truthy(raw.value) {
      var decoded := codecs.jsonDecode(raw.value);
      if decoded.Some? {
        var properties := new BrokerProperties(Unset, uniqid);
        properties.SetAttributes(LcFirstKeys(decoded.value), codecs.dates.parse);
        message.brokerProperties := properties;
      }
    }
  }

  /** `foreach ($response->headers as $key => $value)`: the first of every non-empty list of values. */
  method KeepFirstValues(h: map<string, seq<string>>) returns (headers: map<string, string>)
    ensures headers == FirstValues(h)
  {
    headers := map[];
    var pending := h.Keys;
    while pending != {}
      invariant pending <= h.Keys
      invariant headers == map k | k in h.Keys - pending && |h[k]| > 0 :: h[k][0]
      decreases pending
    {
      var key :| key in pending;
      if |h[key]| > 0 {
        headers := headers[key := h[key][0]];
      }
      pending := pending - {key};
    }
    assert h.Keys - pending == h.Keys;
  }

  /** `foreach ($headers as $headerKey => $value)`: `setProperty` for every remaining header. */
  method CopyCustomHeaders(message: Message, rest: map<string, string>)
    requires message.Valid() && message.customProperties == map[]
    requires LowerKeys(rest)
    modifies message
    ensures message.Valid()
    ensures message.customProperties == map k | k in rest :: JString(rest[k])
    ensures message.body == old(message.body) && message.contentType == old(message.contentType)
    ensures message.date == old(message.date) && message.location == old(message.location)
    ensures message.brokerProperties == old(message.brokerProperties)
  {
    var pending := rest.Keys;
    while pending != {}
      invariant pending <= rest.Keys
      invariant message.Valid()
      invariant message.customProperties == map k | k in rest.Keys - pending :: JString(rest[k])
      invariant message.body == old(message.body) && message.contentType == old(message.contentType)
      invariant message.date == old(message.date) && message.location == old(message.location)
      invariant message.brokerProperties == old(message.brokerProperties)
      decreases pending
    {
      var key :| key in pending;
      assert Lower(key) == key;
      CopiedOneMore(rest, pending, key);
      message.SetProperty(key, JString(rest[key]));
      pending := pending - {key};
    }
    assert rest.Keys - pending == rest.Keys;
  }

  /** Copying one more pending header adds exactly that header to the copied ones. */
  lemma CopiedOneMore(rest: map<string, string>, pending: set<string>, key: string)
    requires key in pending && pending <= rest.Keys
    ensures (map k | k in rest.Keys - (pending - {key}) :: JString(rest[k]))
      == (map k | k in rest.Keys - pending :: JString(rest[k]))[key := JString(rest[key])]
  {
  }

  // ---------------------------------------------------------------- send

  /**
   * The headers `sendMessage` sets: `content-type` when there is one,
   * `BrokerProperties` when there is an envelope, then one JSON-encoded header
   * per custom property. The header collection stores every name lower-cased;
   * the custom property names already are (`Message.Valid`), so a property
   * named `content-type` or `brokerproperties` replaces the header set before it.
   */
  function SendHeaders(contentType: Option<string>, envelope: Option<string>, props: map<string, JsonScalar>,
                       encode: JsonScalar -> string): (h: map<string, string>)
    ensures forall k | k in props :: k in h && h[k] == encode(props[k])
    ensures "content-type" !in props ==>
      ("content-type" in h <==> contentType.Some?) && (contentType.Some? ==> h["content-type"] == contentType.value)
    ensures "brokerproperties" !in props ==>
      ("brokerproperties" in h <==> envelope.Some?) && (envelope.Some? ==> h["brokerproperties"] == envelope.value)
    ensures forall k | k in h :: k in props || k == "content-type" || k == "brokerproperties"
  {
    var base := (if contentType.Some? then map["content-type" := contentType.value] else map[])
      + (if envelope.Some? then map["brokerproperties" := envelope.value] else map[]);
    base + map k | k in props :: encode(props[k])
  }

  /** A custom property named like the envelope header replaces the serialised envelope. */
  lemma EnvelopeReplacedByProperty(contentType: Option<string>, envelope: Option<string>, props: map<string, JsonScalar>,
                                   encode: JsonScalar -> string)
    requires "brokerproperties" in props
    ensures SendHeaders(contentType, envelope, props, encode)["brokerproperties"] == encode(props["brokerproperties"])
  {
  }

  /** The envelope header of a message: the serialised settable properties, or none. */
  function EnvelopeHeader(bp: BrokerProperties?, codecs: Codecs): Option<string>
    reads bp
  {
    if bp == null then None else Some(codecs.jsonEncodeFields(Settable(bp.Fields(), codecs.dates.format)))
  }

  /** `sendMessage($message)`: POST to `<queue>/messages`; only 201 is success. */
  method SendMessage(config: Config, message: Message, transport: Transport, codecs: Codecs)
    returns (request: HttpRequest, r: Result<HttpResponse, Error>)
    requires message.Valid()
    ensures request == HttpRequest("POST", config.queue + "/messages", None,
      SendHeaders(message.contentType, EnvelopeHeader(message.brokerProperties, codecs),
                  message.customProperties, codecs.jsonEncodeValue),
      message.body)
    ensures match transport(request)
      case Failure(e) => r == Failure(TransportFailure(e))
      case Success(resp) => r == (if resp.status == 201 then Success(resp) else Failure(UnexpectedStatus(resp.status)))
  {
    var headers := MessageHeaders(message, codecs);
    request := HttpRequest("POST", config.queue + "/messages", None, headers, message.body);
    var sent := transport(request);
    if sent.Failure? {
      return request, Failure(TransportFailure(sent.error));
    }
    if sent.value.status != 201 {
      return request, Failure(UnexpectedStatus(sent.value.status));
    }
    r := Success(sent.value);
  }

  /** The headers `sendMessage` builds: content type, envelope, then the custom properties. */
  method MessageHeaders(message: Message, codecs: Codecs) returns (headers: map<string, string>)
    requires message.Valid()
    ensures headers == SendHeaders(message.contentType, EnvelopeHeader(message.brokerProperties, codecs),
                                   message.customProperties, codecs.jsonEncodeValue)
  {
    var contentType := message.contentType;
    var bp := message.brokerProperties;
    ghost var envelopeHeader := EnvelopeHeader(bp, codecs);
    headers := map[];
    if contentType.Some? {
      headers := headers["content-type" := contentType.value];
    }
    if bp != null {
      var envelope := bp.ToString(codecs.jsonEncodeFields, codecs.dates.format);
      assert envelopeHeader == Some(envelope);
      headers := headers["brokerproperties" := envelope];
    }
    assert headers == (if contentType.Some? then map["content-type" := contentType.value] else map[])
      + (if envelopeHeader.Some? then map["brokerproperties" := envelopeHeader.value] else map[]);
    headers := SetPropertyHeaders(headers, message.customProperties, codecs.jsonEncodeValue);
  }

  /** `foreach ($message->properties as $key => $value)`: one JSON-encoded header each. */
  method SetPropertyHeaders(base: map<string, string>, props: map<string, JsonScalar>, encode: JsonScalar -> string)
    returns (headers: map<string, string>)
    ensures headers == base + map k | k in props :: encode(props[k])
  {
    headers := base;
    var pending := props.Keys;
    while pending != {}
      invariant pending <= props.Keys
      invariant headers == base + map k | k in props.Keys - pending :: encode(props[k])
      decreases pending
    {
      var key :| key in pending;
      headers := headers[key := encode(props[key])];
      pending := pending - {key};
    }
    assert props.Keys - pending == props.Keys;
  }

  // ---------------------------------------------------------------- delete

  /** `parse_url($location, PHP_URL_PATH)`, a null location read as "" and a missing path as the base URL. */
  function LockLocationPath(location: Option<string>, pathOf: string -> Option<string>): string
  {
    pathOf(location.GetOr("")).GetOr("")
  }

  /**
   * `deleteMessage($message)`: DELETE to the path of the message's `location`
   * (`parse_url($location, PHP_URL_PATH)`, where a null location reads as the
   * empty string and a missing path as the base URL); the status is not checked.
   */
  method DeleteMessage(message: Message, pathOf: string -> Option<string>, transport: Transport)
    returns (request: HttpRequest, r: Result<(), Error>)
    ensures request == HttpRequest("DELETE", LockLocationPath(message.location, pathOf), None, map[], None)
    ensures r.Failure? <==> transport(request).Failure?
    ensures r.Failure? ==> r.error == TransportFailure(transport(request).error)
  {
    var lockLocationPath := pathOf(message.location.GetOr(""));
    request := HttpRequest("DELETE", lockLocationPath.GetOr(""), None, map[], None);
    var sent := transport(request);
    if sent.Failure? {
      return request, Failure(TransportFailure(sent.error));
    }
    r := Success(());
  }
}

=== FILE: servicebus_auth.dfy ===
/**
 * The signing half of `ServiceBus`: its configuration, the lower-hex
 * percent-encoding it signs with, and the `authorization` token it attaches to
 * every request before it is sent.
 */
module ServiceBusAuth {
  import opened Wrappers
  import opened Text
  import opened Percent
  import opened SasToken

  /** The public properties of a `ServiceBus` component. */
  datatype Config = Config(
    environment: string,
    queue: string,
    serviceBusNamespace: string,
    sharedAccessKey: ByteString,
    sharedAccessKeyName: string,
    tokenDuration: int)

  const DefaultEnvironment: string := "servicebus.windows.net"

  const DefaultTokenDuration: int := 3600

  /** The HTTP client's base URL, `https://<namespace>.<environment>`. */
  function BaseUrl(config: Config): string
  {
    "https://" + config.serviceBusNamespace + "." + config.environment
  }

  lemma EncodingIsByteString(style: Style, s: ByteString, upper: bool)
    ensures IsByteString(EncodeWith(style, s, upper))
  {
    var r := EncodeWith(style, s, upper);
    forall i | 0 <= i < |r| ensures r[i] as int < 256 {
      assert InEncodedAlphabet(r[i]);
    }
  }

  /**
   * `lowerUrlEncode`: `urlencode` with every `%XX` escape lower-cased. The
   * result is the form encoding with lower-case hex digits, every `%` opens
   * such an escape, and it decodes back to the input.
   */
  function LowerUrlEncode(s: ByteString): (r: ByteString)
    ensures r == EncodeWith(Form, s, false)
    ensures LowerHexEscapes(r)
    ensures PercentDecode(Form, r) == s
    ensures '&' !in r
  {
    LowerEscapesOfEncoding(Form, s);
    LowerHexEncoding(Form, s);
    DecodeEncode(Form, s, false);
    NoSeparatorInEncoding(Form, s, false);
    EncodingIsByteString(Form, s, false);
    LowerEscapes(UrlEncode(s))
  }

  /** Outside its escapes the lower-hex encoding is exactly `urlencode`'s: the two differ only in hex-digit case. */
  lemma LowerUrlEncodeAgainstUrlEncode(s: ByteString)
    ensures LowerUrlEncode(s) == LowerEscapes(UrlEncode(s))
    ensures UrlEncode(s) == EncodeWith(Form, s, true)
    ensures LowerUrlEncode(s) == EncodeWith(Form, s, false)
  {
    LowerEscapesOfEncoding(Form, s);
  }

  /** `generateAuthorizationToken($url)` at clock reading `now`. */
  function GenerateAuthorizationToken(config: Config, url: ByteString, now: int, crypto: Crypto): string
  {
    var expiry := now + config.tokenDuration;
    var encodedUrl := LowerUrlEncode(url);
    var scope := StringToSign(encodedUrl, expiry);
    var signature := crypto.base64(crypto.hmacSha256(scope, config.sharedAccessKey));
    Format(TokenFields(LowerUrlEncode(signature), DecimalString(expiry), config.sharedAccessKeyName, encodedUrl))
  }

  /**
   * The token reads back as: the lower-hex encoding of the Base64 HMAC of
   * resource, newline, expiry as signature; the expiry `now + tokenDuration`;
   * the key name; and `lowerUrlEncode($url)` as resource.
   */
  lemma AuthorizationTokenReadsBack(config: Config, url: ByteString, now: int, crypto: Crypto)
    ensures var expiry := now + config.tokenDuration;
      var resource := LowerUrlEncode(url);
      var signed := StringToSign(resource, expiry);
      Parse(GenerateAuthorizationToken(config, url, now, crypto)) == Some(TokenFields(
        LowerUrlEncode(crypto.base64(crypto.hmacSha256(signed, config.sharedAccessKey))),
        DecimalString(expiry), config.sharedAccessKeyName, resource))
  {
    var expiry := now + config.tokenDuration;
    var signature := crypto.base64(crypto.hmacSha256(StringToSign(LowerUrlEncode(url), expiry), config.sharedAccessKey));
    AuthorizationTokenParses(signature, expiry, config.sharedAccessKeyName, url);
  }

  /** A lower-hex signature, a decimal expiry and a lower-hex resource read back from their token. */
  lemma AuthorizationTokenParses(signature: ByteString, expiry: int, keyName: string, url: ByteString)
    ensures var f := TokenFields(LowerUrlEncode(signature), DecimalString(expiry), keyName, LowerUrlEncode(url));
      Parse(Format(f)) == Some(f)
  {
    NoSeparatorInDecimal(expiry);
    ParseFormat(TokenFields(LowerUrlEncode(signature), DecimalString(expiry), keyName, LowerUrlEncode(url)));
  }

  /** The token's `se` field reads back as the expiry instant `now + tokenDuration`. */
  lemma AuthorizationTokenExpiry(config: Config, url: ByteString, now: int, crypto: Crypto)
    ensures var token := Parse(GenerateAuthorizationToken(config, url, now, crypto));
      token.Some? && ParseInt(token.value.se) == Some(now + config.tokenDuration)
  {
    AuthorizationTokenReadsBack(config, url, now, crypto);
    ParseDecimalString(now + config.tokenDuration);
  }

  /** The signed string is the encoded resource, a newline, and the decimal expiry. */
  lemma SignedStringShape(resource: ByteString, expiry: int)
    ensures StringToSign(resource, expiry) == resource + "\n" + DecimalString(expiry)
    ensures var s := StringToSign(resource, expiry);
      s[|resource|] == '\n' && s[..|resource|] == resource && ParseInt(s[|resource| + 1..]) == Some(expiry)
  {
    var s := StringToSign(resource, expiry);
    assert s[|resource| + 1..] == DecimalString(expiry);
    ParseDecimalString(expiry);
  }
}

=== FILE: text.dfy ===
/**
 * The string primitives of the PHP runtime that the client leans on: ASCII
 * `strtolower` and `lcfirst` (locale-independent since PHP 8.2), `explode`,
 * `implode`, `trim` with a character list of one character, splitting a pair
 * at the first separator (`explode` with a limit of 2) and the decimal
 * rendering of an integer (`%d`, string interpolation).
 */
module Text {
  import opened Wrappers

  predicate IsUpper(c: char) { 'A' <= c <= 'Z' }

  predicate IsDigit(c: char) { '0' <= c <= '9' }

  /** No upper-case ASCII letter anywhere in `s`. */
  predicate NoUpper(s: string) { forall i | 0 <= i < |s| :: !IsUpper(s[i]) }

  /** A PHP string: every character is one octet. */
  predicate IsByteString(s: string) { forall i | 0 <= i < |s| :: s[i] as int < 256 }

  type ByteString = s: string | IsByteString(s)

  function LowerChar(c: char): (r: char)
    ensures !IsUpper(r)
    ensures c as int < 256 ==> r as int < 256
  {
    if IsUpper(c) then (c as int + 32) as char else c
  }

  /** `strtolower`: every ASCII upper-case letter is replaced by its lower-case form. */
  function Lower(s: string): (r: string)
    ensures |r| == |s|
    ensures forall i | 0 <= i < |s| :: r[i] == LowerChar(s[i])
    ensures NoUpper(r)
    ensures IsByteString(s) ==> IsByteString(r)
  {
    if s == [] then [] else [LowerChar(s[0])] + Lower(s[1..])
  }

  lemma LowerIdempotent(s: string)
    ensures Lower(Lower(s)) == Lower(s)
  {
  }

  /** A string without upper-case letters is its own lower-case form. */
  lemma {:induction false} LowerOfNoUpper(s: string)
    requires NoUpper(s)
    ensures Lower(s) == s
  {
    if s != [] {
      LowerOfNoUpper(s[1..]);
    }
  }

  /** `lcfirst`: only the first character is lower-cased. */
  function LcFirst(s: string): (r: string)
    ensures |r| == |s|
    ensures |s| > 0 ==> r[0] == LowerChar(s[0]) && r[1..] == s[1..]
  {
    if s == [] then [] else [LowerChar(s[0])] + s[1..]
  }

  /** Splits `s` around the first occurrence of `c`; None when there is none. */
  function SplitAtFirst(s: string, c: char): (r: Option<(string, string)>)
    ensures r.None? <==> c !in s
    ensures r.Some? ==> r.value.0 + [c] + r.value.1 == s && c !in r.value.0
  {
    if |s| == 0 then None
    else if s[0] == c then Some(([], s[1..]))
    else
      match SplitAtFirst(s[1..], c)
      case None => None
      case Some((a, b)) => assert [s[0]] + a + [c] + b == s; Some(([s[0]] + a, b))
  }

  /** The first occurrence is found whatever follows it. */
  lemma {:induction false} SplitAtFirstOf(a: string, b: string, c: char)
    requires c !in a
    ensures SplitAtFirst(a + [c] + b, c) == Some((a, b))
  {
    if a != [] {
      var s := a + [c] + b;
      assert s[0] == a[0] && a[0] in a;
      assert s[1..] == a[1..] + [c] + b;
      SplitAtFirstOf(a[1..], b, c);
      assert [a[0]] + a[1..] == a;
    } else {
      assert a + [c] + b == [c] + b;
    }
  }

  /**
   * Splits `s` around the last occurrence of `c`; None when there is none.
   * The SAS token reader uses it for `skn=…&sr=…`, so a key name may hold `&`.
   */
  function SplitAtLast(s: string, c: char): (r: Option<(string, string)>)
    ensures r.None? <==> c !in s
    ensures r.Some? ==> r.value.0 + [c] + r.value.1 == s && c !in r.value.1
  {
    if |s| == 0 then None
    else if s[|s| - 1] == c then assert s[..|s| - 1] + [c] == s; Some((s[..|s| - 1], []))
    else
      match SplitAtLast(s[..|s| - 1], c)
      case None =>
        assert s == s[..|s| - 1] + [s[|s| - 1]];
        None
      case Some((a, b)) =>
        assert a + [c] + (b + [s[|s| - 1]]) == s;
        Some((a, b + [s[|s| - 1]]))
  }

  /** The last occurrence is found whatever precedes it. */
  lemma {:induction false} SplitAtLastOf(a: string, b: string, c: char)
    requires c !in b
    ensures SplitAtLast(a + [c] + b, c) == Some((a, b))
  {
    var s := a + [c] + b;
    if b == [] {
      assert s[..|s| - 1] == a;
    } else {
      assert s[..|s| - 1] == a + [c] + b[..|b| - 1];
      SplitAtLastOf(a, b[..|b| - 1], c);
      assert b[..|b| - 1] + [b[|b| - 1]] == b;
    }
  }

  /** `implode`: the parts with one `c` between neighbours. */
  function Join(parts: seq<string>, c: char): string
  {
    if |parts| == 0 then []
    else if |parts| == 1 then parts[0]
    else parts[0] + [c] + Join(parts[1..], c)
  }

  /** `explode`: the maximal pieces of `s` between occurrences of `c`. */
  function Explode(s: string, c: char): (r: seq<string>)
    ensures |r| >= 1
    ensures forall i | 0 <= i < |r| :: c !in r[i]
    ensures Join(r, c) == s
    decreases |s|
  {
    match SplitAtFirst(s, c)
    case None => [s]
    case Some((a, b)) => [a] + Explode(b, c)
  }

  /** Exploding a join gives the parts back when no part holds the separator. */
  lemma {:induction false} ExplodeJoin(parts: seq<string>, c: char)
    requires |parts| >= 1
    requires forall i | 0 <= i < |parts| :: c !in parts[i]
    ensures Explode(Join(parts, c), c) == parts
  {
    if |parts| == 1 {
    } else {
      SplitAtFirstOf(parts[0], Join(parts[1..], c), c);
      ExplodeJoin(parts[1..], c);
    }
  }

  function TrimStart(s: string, c: char): (r: string)
    ensures |r| <= |s| && r == s[|s| - |r|..]
    ensures forall i | 0 <= i < |s| - |r| :: s[i] == c
    ensures |r| > 0 ==> r[0] != c
  {
    if |s| > 0 && s[0] == c then TrimStart(s[1..], c) else s
  }

  function TrimEnd(s: string, c: char): (r: string)
    ensures |r| <= |s| && r == s[..|r|]
    ensures forall i | |r| <= i < |s| :: s[i] == c
    ensures |r| > 0 ==> r[|r| - 1] != c
  {
    if |s| > 0 && s[|s| - 1] == c then TrimEnd(s[..|s| - 1], c) else s
  }

  /** `trim($s, c)`: every leading and trailing `c` removed. */
  function Trim(s: string, c: char): string
  {
    TrimEnd(TrimStart(s, c), c)
  }

  /** What `trim` leaves: a middle piece of `s`, not starting or ending with `c`, with only `c` cut off. */
  lemma TrimShape(s: string, c: char)
    ensures var r := Trim(s, c);
      var lead := |s| - |TrimStart(s, c)|;
      && lead + |r| <= |s|
      && r == s[lead..lead + |r|]
      && (forall i | 0 <= i < lead :: s[i] == c)
      && (forall i | lead + |r| <= i < |s| :: s[i] == c)
      && (|r| > 0 ==> r[0] != c && r[|r| - 1] != c)
  {
    var t := TrimStart(s, c);
    var r := TrimEnd(t, c);
    var lead := |s| - |t|;
    assert r == t[..|r|];
    assert t == s[lead..];
    forall i | lead + |r| <= i < |s| ensures s[i] == c {
      assert s[i] == t[i - lead];
    }
  }

  function DigitChar(d: nat): (r: char)
    requires d < 10
    ensures IsDigit(r)
  {
    ('0' as int + d) as char
  }

  /** The decimal digits of a natural number, most significant first, no leading zero. */
  function Digits(n: nat): (r: string)
    ensures |r| >= 1 && forall i | 0 <= i < |r| :: IsDigit(r[i])
    ensures |r| > 1 ==> r[0] != '0'
  {
    if n < 10 then [DigitChar(n)] else Digits(n / 10) + [DigitChar(n % 10)]
  }

  /** `%d` of an integer. */
  function DecimalString(n: int): (r: string)
    ensures forall i | 0 <= i < |r| :: IsDigit(r[i]) || r[i] == '-'
  {
    if n < 0 then "-" + Digits(-n) else Digits(n)
  }

  predicate AllDigits(s: string) { forall i | 0 <= i < |s| :: IsDigit(s[i]) }

  function ParseNat(s: string): nat
    requires AllDigits(s)
  {
    if |s| == 0 then 0 else 10 * ParseNat(s[..|s| - 1]) + (s[|s| - 1] as int - '0' as int)
  }

  /** Reads an optionally signed decimal integer; None for anything else. */
  function ParseInt(s: string): Option<int>
  {
    if |s| > 0 && s[0] == '-' then
      if |s| > 1 && AllDigits(s[1..]) then Some(0 - ParseNat(s[1..]) as int) else None
    else if |s| > 0 && AllDigits(s) then Some(ParseNat(s))
    else None
  }

  lemma {:induction false} ParseDigits(n: nat)
    ensures ParseNat(Digits(n)) == n
  {
    if n >= 10 {
      var s := Digits(n);
      assert s[..|s| - 1] == Digits(n / 10);
      ParseDigits(n / 10);
    }
  }

  /** The decimal rendering of an integer reads back as that integer. */
  lemma ParseDecimalString(n: int)
    ensures ParseInt(DecimalString(n)) == Some(n)
  {
    var s := DecimalString(n);
    if n < 0 {
      assert s[0] == '-' && s[1..] == Digits(-n);
      assert AllDigits(s[1..]);
      ParseDigits(-n);
    } else {
      assert s == Digits(n) && IsDigit(s[0]);
      assert AllDigits(s);
      ParseDigits(n);
    }
  }

  /** So two instants with the same rendering are the same instant. */
  lemma DecimalStringInjective(m: int, n: int)
    requires DecimalString(m) == DecimalString(n)
    ensures m == n
  {
    ParseDecimalString(m);
    ParseDecimalString(n);
  }
}

=== FILE: wrappers.dfy ===
/** Option and Result, the stand-ins for PHP's `null` and for thrown exceptions. */
module Wrappers {

  datatype Option<+T> = None | Some(value: T) {
    function GetOr(default: T): T {
      match this
      case Some(v) => v
      case None => default
    }
  }

  datatype Result<+R, +E> = Success(value: R) | Failure(error: E)
}
